=== FILE: README.md ===
# go-multicall aggregation engine, in Dafny

This project models the core of the Go library `go-multicall`. The library
batches many read-only smart-contract calls into a few invocations of the
on-chain Multicall3 aggregator (its `aggregate3` entry point). It then puts
the aggregated answers back into one result per call, in input order.

The model has four modules:

- `Model` (model.dfy) holds the records and constructors of model.go:
  - `CallRequest`, `CallResult` and `MulticallConfig`;
  - the defaults of 100 calls per batch and a 30-second timeout, with
    durations as integer nanoseconds;
  - `NewMulticallConfig`, `NewDefaultMulticallConfig` and `NewCallRequest`.
- `Planner` (planner.dfy) holds the chunking hidden in the header of the
  `MulticallRaw` loop. The index starts at 0 and advances by the batch
  size, and each pass takes the slice `calls[i:min(i+BatchSize, n)]`. The
  module proves that these chunks tile `[0, n)` in order.
- `Engine` (engine.dfy) holds `MulticallRaw` itself:
  - a loop over a zero-filled result buffer, one remote invocation per
    chunk, and the scatter `results[i+j] = response[j]`;
  - a reference definition (`RunFrom`/`Multicall`) of what one call
    returns and how many remote invocations it makes;
  - the properties that follow from it: length, order, demultiplexing,
    round-trip count, early abort, batching transparency and per-call
    failure isolation.
- `AsWritten` (aswritten.dfy) transcribes the loop for every batch size an
  `int` can hold and every decoder reply. Non-termination and Go panics are
  outcomes there. Its environment `Env` gives one step per loop pass, so
  the shared deadline can expire on any pass, even one that re-sends the
  same chunk. It proves that the code agrees with the Engine model under
  the Engine's preconditions, and what happens outside them.

Packing a chunk, calling the aggregator and unpacking the reply happen
inside go-ethereum's ABI codec and RPC client, which are not part of this
model. They are one environment function, `Engine.Step`. It takes the
chunk's start index and its requests, and it returns either the decoded
entries or the kind of failure (`Pack`, `Call` or `Unpack`). The source
trusts the decoder to return one entry per request and never checks it.
The model states that trust as the predicate `Engine.Conforms`.
`Engine.MulticallRaw` and `AsWritten.AsWrittenMatchesModel` assume it, so
every Engine property, abort and invocation count included, holds of the
code only under it: a reply longer than the slots left panics first
(`AsWritten.OverrunPanicsBeforeLaterFailure`). For any decoder, the
AsWritten module proves that a batch size of at least one always ends the
loop (`AsWritten.PositiveBatchEnds`), and that the first failing chunk ends
the call with its error and start index when no earlier reply overran the
buffer (`AsWritten.FirstFailedPassEndsCall`).

Two facts about the code shape the model:

- Neither constructor nor `MulticallRaw` validates the batch size, so a
  configuration may hold 0 or a negative value (see Findings).
- Every error carries the start index `i` of the chunk that failed
  (service.go:58, 69, 78), not the chunk's ordinal number.

## Model

| member | source | states |
|---|---|---|
| Model.NewMulticallConfig | model.go:64-76 | every argument lands verbatim in its own field |
| Model.NewMulticallConfigIsOnto | model.go:64-76 | no validation: every configuration, including one with a batch size ≤ 0 or a negative timeout, is produced from its own fields |
| Model.NewMulticallConfigIsInjective | model.go:64-76 | nothing is clamped or defaulted: distinct arguments give distinct configurations |
| Model.NewDefaultMulticallConfig | model.go:84-86 | the client and address pass through unchanged; the batch size is 100 and the timeout is 30 000 000 000 ns (30 s) |
| Model.NewCallRequest | model.go:88-94 | target, calldata and allowFailure each reach their own field, although the parameter order differs from the field order |
| Model.NewCallRequestRoundTrip | model.go:88-94 | reading a request's fields back in parameter order rebuilds the same request |
| Planner.PlanFrom | service.go:54-55 | the chunks the loop header visits from index `i`; its properties are the lemmas below |
| Planner.Plan | service.go:54-55 | the chunks of one call, from index 0; its properties are the lemmas below |
| Planner.PlanFromEmpty | service.go:54 | the loop body runs from index `i` exactly when `i < len(calls)` |
| Planner.PlanFromChunk | service.go:54-55 | each chunk from `i` lies within `[i, n)`, holds at most `b` calls, and ends at `min(start+b, n)`; every chunk but the last is full and abuts the next, and the last ends at `n` |
| Planner.PlanFromClosedForm | service.go:54-55 | chunk `k` visited from `i` is `[i + Stride(k, b), min(i + Stride(k, b) + b, n))`, where `Stride(k, b)` is `k·b` (Planner.StrideIsProduct) |
| Planner.PlanChunk | service.go:54-55 | chunk `k` of a call is `[k·b, min(k·b + b, n))` |
| Planner.PlanCount | service.go:54 | the loop makes `ceil(n / b)` passes |
| Planner.PlanTiles | service.go:54-55 | the chunks cover `[0, n)` end to end: none exactly when `n == 0`, the first starts at 0 and the last ends at `n`, consecutive chunks abut, and every chunk holds 1 to `b` calls, all but the last exactly `b` |
| Planner.PlanOrdered | service.go:54-55 | chunks come in increasing order and do not overlap |
| Planner.PlanLocates | service.go:54-55 | every index `x < n` lies in exactly one chunk, chunk `x / b`, at offset `x % b` |
| Engine.RunFrom | service.go:54-87 | the reference run from index `i`: the first failing chunk ends it with that chunk's error kind and start index; otherwise it yields the chunks' decoded entries in order; its properties are the lemmas below |
| Engine.RunFromErrorInRange | service.go:58-78 | an error names an index between `i` and the number of calls |
| Engine.Multicall | service.go:44-88 | the whole call as a function of its inputs: no calls give an empty result and no invocation, and an error names an index below the number of calls (that it is the start of the first failing chunk is Engine.ErrorNamesFirstFailingChunk) |
| Engine.RunFromShape | service.go:54-87 | a run succeeds exactly when every remaining chunk decodes; it then makes one invocation per chunk and, when the decoder returns one entry per request (`Conforms`), yields one result per remaining call; a failed run never makes more invocations than there are chunks |
| Engine.AllDecodeFrom | service.go:54-79 | all chunks from `i` decode exactly when the first does and all chunks from `i + b` do |
| Engine.Overwrite | service.go:82-84 | the buffer after the inner `for` loop: slots `[i, i + len(response))` hold the response, the rest are unchanged |
| Engine.OverwriteSlices | service.go:82-84 | read as slices, that buffer is the old prefix before `i`, then the response, then the untouched rest |
| Engine.Scatter | service.go:82-84 | the slot-by-slot loop yields exactly that buffer: the decoded entries overwrite slots `[i, i + len(response))` in order, and no other slot changes |
| Engine.Advance | service.go:54-85 | one successful pass writes the chunk's decoded entries over the chunk's slots and leaves every other slot unchanged, counts one invocation, moves the index on by `b`, and leaves the total the call returns unchanged |
| Engine.MulticallRaw | service.go:44-88 | the loop returns exactly what the reference run returns, with as many invocations; on success there is one result per call; with no calls the result is empty, no error, no invocation |
| Engine.RunFromAt | service.go:54-85 | in a successful run from `i`, the chunk `m` strides later, at `s`, decoded, and its entry `j` is result `s - i + j` of the run (Engine.LandsAt) |
| Engine.ChunkEntryLands | service.go:54-85 | entry `j` of chunk `k` ends up at `results[k's start + j]` |
| Engine.ResultAnswersItsCall | service.go:54-85 | `results[x]` is entry `x % b` of the reply to chunk `x / b`, the chunk that carried `calls[x]`, whatever the chunk boundaries |
| Engine.DemuxChunk | service.go:82-84 | on success, the results over each chunk's range are exactly that chunk's decoded entries |
| Engine.MulticallDelivers | service.go:48-87 | for a decoder that returns one entry per request (`Conforms`), the call succeeds exactly when every chunk decodes; it then returns one result per call after `ceil(N / B)` invocations, and each chunk's range holds that chunk's entries |
| Engine.RunFromAbort | service.go:56-79 | the first failing chunk ends the run with its error kind and start index; later chunks are never sent and cannot change the outcome |
| Engine.RunFromFailureIsFirst | service.go:56-79 | every failed run has a first failing chunk, and the error names it |
| Engine.AbortAtFirstFailure | service.go:56-79 | a pack, call or unpack failure in the first failing chunk `k` returns no results and an error with that chunk's start; invocations stop after `k` chunks (plus one if the failure was not in packing); any answers to later chunks give the same outcome |
| Engine.ErrorNamesFirstFailingChunk | service.go:58-78 | every error carries the start of the first failing chunk, `k·b`, which is below the number of calls |
| Engine.AnswersAppend | service.go:82-84 | answering two request lists one after the other is answering their concatenation |
| Engine.RunFromTransparent | service.go:54-85 | when the aggregator answers each call on its own, the run from `i` returns its answers to `calls[i:]` |
| Engine.BatchingIsTransparent | service.go:54-85 | in that case the result is the aggregator's answer to each call, in input order |
| Engine.BatchSizeIsIrrelevant | service.go:54 | in that case any two batch sizes ≥ 1 give the same outcome |
| Engine.PerCallFailureIsIsolated | service.go:82-84 | a call that fails on chain is ordinary output: the whole call succeeds, the failed entry sits in its own slot, and every other slot is unchanged |
| AsWritten.Loop | service.go:54-85 | the loop as written, one pass per unit of fuel, for any `int` batch size; a successful return hands back a buffer as long as the one it started with, whatever the decoder returned |
| AsWritten.MulticallRawAsWritten | service.go:44-88 | the function as written: a successful return has exactly one result per call, whatever the batch size and decoder; no calls give an empty result and no invocation |
| AsWritten.LoopMatchesRun | service.go:54-85 | from pass `p` at index `p·b`, given enough passes, the loop as written finishes the run the Engine describes |
| AsWritten.AsWrittenMatchesModel | service.go:44-88 | with a batch size ≥ 1 and a conforming decoder, the code as written returns what the Engine model returns within `ceil(N / B)` passes, the Engine's step answering chunk `p` as pass `p` does |
| AsWritten.ZeroBatchLoopNeverSucceeds | service.go:54-85 | with batch size 0, from any pass and buffer, the loop never returns results: if it returns at all, it is an error at index 0 |
| AsWritten.ZeroBatchNeverSucceeds | service.go:44-88 | `MulticallRaw` with batch size 0 and at least one call never succeeds; every return is an error at index 0 |
| AsWritten.ZeroBatchSpins | service.go:54-55 | with batch size 0, as long as every send of the empty chunk `calls[0:0]` is answered with a reply that fits the buffer, the index stays at 0 and the loop does not return |
| AsWritten.ZeroBatchUntilFailure | service.go:54-79 | with batch size 0, if every earlier reply fit the buffer, the first pass `q` whose send fails ends the loop with that failure at index 0, after one invocation per earlier pass |
| AsWritten.ZeroBatchEndsAtFailedSend | service.go:44-88 | `MulticallRaw` with batch size 0 re-sends the empty chunk until the first failed send (for example the expired deadline) and, if no earlier reply was longer than the number of calls, returns that error at index 0, after `q` invocations plus the failing one |
| AsWritten.PositiveBatchLoopEnds | service.go:54-85 | with a batch size ≥ 1 and one pass of fuel per remaining chunk, the loop returns or panics, whatever the decoder answers |
| AsWritten.PositiveBatchEnds | service.go:44-88 | `MulticallRaw` with a batch size ≥ 1 ends within `ceil(N / B)` passes for any decoder |
| AsWritten.PassShift | service.go:54 | the passes after the first are the passes from the next index, `i + B` |
| AsWritten.FitsAfterPass | service.go:54 | after a decoded pass, the passes before the failing one still fit the buffer and the failing one still fails, counted from `i + B` |
| AsWritten.FailureAfterDecodedPass | service.go:54-85 | a decoded pass that fits the buffer adds one invocation and hands on to the next index whatever failure ends the loop there |
| AsWritten.LoopFirstFailure | service.go:54-85 | for any decoder and any batch size ≥ 0, the first pass `q` whose chunk fails ends the loop with that failure at the chunk's start, after `q` invocations plus the failing one's, provided no earlier reply overran the buffer |
| AsWritten.FirstFailedPassEndsCall | service.go:44-88 | `MulticallRaw` as written, for any decoder: the first failing chunk `q` gives its error at index `q·B` and no results, when no earlier reply was longer than the slots left |
| AsWritten.OverrunPanicsBeforeLaterFailure | service.go:82-84 | an example without one entry per request: a three-entry reply to a one-call chunk panics before the failing second chunk is sent, while the Engine model reports that failure |
| AsWritten.NegativeBatchPanics | service.go:55 | with a negative batch size and at least one call, the first slice expression is out of range |
| AsWritten.LoopLeavesUnreachedSlots | service.go:82-84 | a slot that no pass's reply reaches keeps, on success, the value it had when the loop started |
| AsWritten.UnansweredSlotKeepsZeroValue | service.go:48-84 | the reply length is never checked: on success there is one result per call, and every slot no reply reached holds the zero value `{false, nil}` |
| AsWritten.ShortDecodeKeepsZeroValue | service.go:48-84 | an example: a decoder that returns no entries for a one-call chunk goes unnoticed, and the call succeeds with the zero value |
| AsWritten.LongDecodePanics | service.go:82-84 | an example: a decoder that returns more entries than slots remain makes `results[i+j]` go out of range |
| AsWritten.LongDecodeFillsNextChunk | service.go:82-84 | a reply with more entries than its chunk had requests writes into the next chunk's slots: with batches of one call, replies `[A, B]` and then `[]` make the call succeed with `[A, B]` |

## Left out

- The ABI loading in `init` (service.go:15-31): an embedded JSON file parsed once under `sync.Once`, with `log.Fatalf` on failure. This is start-up I/O. The model assumes the ABI is loaded.
- `multicallABI.Pack`, `Client.CallContract` with its `ethereum.CallMsg`, and `UnpackIntoInterface` (service.go:56, 61-67, 76). They belong to go-ethereum, which is not part of this model. All three are the abstract `Engine.Step`, which yields entries or an error kind.
- The shared deadline from `context.WithTimeout` and its `cancel` (service.go:51-52). Wall-clock time is not modelled. An expired deadline is one way a step fails with kind `Call`. In the Engine, `Step` receives the chunk's start index, so it may answer later chunks differently. In AsWritten, `Env` gives each loop pass its own step, so the deadline can expire on a pass that re-sends a chunk.
- The text of the `fmt.Errorf` messages. Only the error kind and the chunk start index are kept.
- The `*ethclient.Client` handle. It is modelled as an opaque identity (`Model.Client`), and `MulticallConfig` is an immutable value rather than a shared heap record.
- Nil versus empty `Data` slices. Both are the empty sequence.
- Go's 64-bit `int`. Indices and the batch size are unbounded integers, so `i + BatchSize` cannot overflow in the model. In Go, `i + BatchSize` can wrap only on a later pass, with `BatchSize <= i < len(calls)` and the sum above the maximum `int`, so it needs a slice longer than about half the maximum `int`, which cannot be allocated.
- Engine.MulticallRaw: requires a batch size ≥ 1 and a conforming decoder. The behaviour outside these conditions is stated separately in the AsWritten module, not in this contract.
- AsWritten.Loop: bounds the number of loop passes by a fuel argument. "Out of fuel" stands for "has not returned yet", so the model states non-termination as "exhausts any fuel".
- AsWritten.AsWrittenMatchesModel: the Engine's `Step` is keyed by chunk start, so the comparison uses `Timed`, the step that answers the chunk at `i` as pass `i / B` does.
- Concurrency: the library shares an immutable configuration between goroutines, and nothing in the core is concurrent.

## Findings

| source | as written | input that shows it | evidently intended | confidence | as-written member | corrected member |
|---|---|---|---|---|---|---|
| model.go:64-76, service.go:54-55 | neither constructor checks `BatchSize`, and the loop advances `i` by it: with 0 the index never moves, the empty chunk `calls[0:0]` is re-sent on every pass, and the call never returns results, only the error of the first failed send (at the latest the expired deadline) at index 0; with a negative value the first slice is out of range | `BatchSize = 0` and one call | a batch size below 1 is rejected (or treated as 1) before the loop | not executed | AsWritten.ZeroBatchNeverSucceeds | Engine.MulticallRaw |

=== FILE: aswritten.dfy ===
/** `MulticallRaw` exactly as service.go:44-88 writes it, for every batch
    size a configuration can hold and every answer the environment can
    give on every pass, including the ones the Engine module excludes by its
    preconditions. A Go panic (a slice or index out of range) and a loop
    that never ends are outcomes here; the loop's progress is bounded by a
    fuel argument, and running out of fuel stands for "has not returned
    yet".

    The environment may answer each pass differently: the deadline shared
    by all passes (service.go:51) expires at some pass, after which every
    remote call fails. */
module AsWritten {
  import opened Model
  import opened Planner
  import opened Engine

  /** How an as-written execution ends. */
  datatype Exec =
    | Returned(outcome: Outcome, trips: nat)
    | Panicked   // a slice or index expression out of range
    | Exhausted  // still looping when the fuel ran out

  /** The environment over time: `env(p)` packs, sends and unpacks the
      chunk of the loop's pass number `p` (counting from 0). */
  type Env = nat -> Step

  /** One pass of the `for` loop per unit of fuel: pass number `pass`, at
      index `i`, with the buffer `results` and `trips` remote invocations
      made so far. The batch size `b` is Go's `int`: nothing keeps it
      positive. Whatever the decoder returns, a successful return hands back
      a buffer as long as the one the loop started with. */
  function Loop(calls: seq<CallRequest>, b: int, env: Env, pass: nat, i: nat, results: seq<CallResult>, trips: nat, fuel: nat): (r: Exec)
    ensures r.Returned? && r.outcome.Ok? ==> |r.outcome.results| == |results|
    decreases fuel
  {
    if i >= |calls| then Returned(Ok(results), trips)
    else if fuel == 0 then Exhausted
    else
      var hi := Min(i + b, |calls|);
      if hi < i then Panicked  // calls[i:hi] with hi < i
      else
        match env(pass)(i, calls[i..hi])
        case Failed(kind) => Returned(Err(MulticallError(kind, i)), trips + TripCost(kind))
        case Decoded(response) =>
          if i + |response| > |results| then Panicked  // results[i+j] past the end
          else Loop(calls, b, env, pass + 1, i + b, Overwrite(results, i, response), trips + 1, fuel - 1)
  }

  /** The whole function: a zero-valued buffer with one slot per call, then
      the loop from pass 0 at index 0. A successful return has one result
      per call, whatever the batch size and the decoder; no calls means no
      invocation and an empty result. */
  function MulticallRawAsWritten(cfg: MulticallConfig, calls: seq<CallRequest>, env: Env, fuel: nat): (r: Exec)
    ensures r.Returned? && r.outcome.Ok? ==> |r.outcome.results| == |calls|
    ensures |calls| == 0 ==> r == Returned(Ok([]), 0)
  {
    Loop(calls, cfg.batchSize, env, 0, 0, seq(|calls|, _ => ZeroResult), 0, fuel)
  }

  // ---------------------------------------------------------------------
  // Agreement with the Engine model

  /** The per-chunk step the Engine model sees: with a batch size of at
      least one, the chunk that starts at `i` is sent on pass `i / b`. */
  function Timed(env: Env, b: nat): Step
    requires b >= 1
  {
    (i: nat, batch: seq<CallRequest>) => env(i / b)(i, batch)
  }

  /** Pass `p` sends the chunk at `p * b`, which `Timed` answers as pass `p`
      does. */
  lemma TimedAt(env: Env, b: nat, p: nat, batch: seq<CallRequest>)
    requires b >= 1
    ensures Timed(env, b)(Stride(p, b), batch) == env(p)(Stride(p, b), batch)
  {
    StrideIsProduct(p, b);
    DivUnique(p * b, b, p);
  }

  /** A pass whose chunk decodes, within the buffer, writes the reply and
      hands over to the next pass. */
  lemma LoopDecodedPass(calls: seq<CallRequest>, b: nat, env: Env, pass: nat, i: nat, results: seq<CallResult>, trips: nat, fuel: nat)
    requires i < |calls| && fuel > 0
    requires env(pass)(i, calls[i..Min(i + b, |calls|)]).Decoded?
    requires i + |env(pass)(i, calls[i..Min(i + b, |calls|)]).entries| <= |results|
    ensures Loop(calls, b, env, pass, i, results, trips, fuel)
         == Loop(calls, b, env, pass + 1, i + b,
                 Overwrite(results, i, env(pass)(i, calls[i..Min(i + b, |calls|)]).entries), trips + 1, fuel - 1)
  {
  }

  /** A pass whose chunk fails ends the loop with that failure at `i`. */
  lemma LoopFailedPass(calls: seq<CallRequest>, b: nat, env: Env, pass: nat, i: nat, results: seq<CallResult>, trips: nat, fuel: nat)
    requires i < |calls| && fuel > 0
    requires env(pass)(i, calls[i..Min(i + b, |calls|)]).Failed?
    ensures var kind := env(pass)(i, calls[i..Min(i + b, |calls|)]).failure;
      Loop(calls, b, env, pass, i, results, trips, fuel) == Returned(Err(MulticallError(kind, i)), trips + TripCost(kind))
  {
  }

  /** One decoded pass: if the loop from the next pass finishes the run
      from the next chunk, the loop from this pass finishes the run from
      this chunk. `later` and `next` are the next pass number and index;
      they are parameters, rather than the sums `pass + 1` and `i + b`, so
      that this lemma's last requires is word for word the ensures of the
      recursive call in LoopMatchesRun, which the verifier matches far more
      cheaply. */
  lemma DecodedPassMatches(calls: seq<CallRequest>, b: nat, env: Env, pass: nat, i: nat, results: seq<CallResult>, trips: nat, fuel: nat,
                           response: seq<CallResult>, written: seq<CallResult>, later: nat, next: nat)
    requires b >= 1 && i < |calls| && fuel > 0 && |results| == |calls| && i == Stride(pass, b)
    requires later == pass + 1 && next == i + b
    requires env(pass)(i, calls[i..Min(i + b, |calls|)]) == Decoded(response)
    requires i + |response| == Min(i + b, |calls|)
    requires written == Overwrite(results, i, response)
    requires Loop(calls, b, env, later, next, written, trips + 1, fuel - 1)
          == Returned(Resume(written[..Min(next, |calls|)], trips + 1, RunFrom(calls, b, Timed(env, b), next)).outcome,
                      Resume(written[..Min(next, |calls|)], trips + 1, RunFrom(calls, b, Timed(env, b), next)).trips)
    ensures Loop(calls, b, env, pass, i, results, trips, fuel)
         == Returned(Resume(results[..Min(i, |calls|)], trips, RunFrom(calls, b, Timed(env, b), i)).outcome,
                     Resume(results[..Min(i, |calls|)], trips, RunFrom(calls, b, Timed(env, b), i)).trips)
  {
    var step := Timed(env, b);
    TimedAt(env, b, pass, calls[i..Min(i + b, |calls|)]);
    assert written[..Min(i + b, |calls|)] == results[..i] + response;
    assert results[..Min(i, |calls|)] == results[..i];
    LoopDecodedPass(calls, b, env, pass, i, results, trips, fuel);
    ResumeAfterChunk(results[..i], trips, calls, b, step, i);
  }

  /** The loop from pass `pass`, at index `pass * b`, finishes the run
      `RunFrom` describes, after the results already written below that
      index. */
  lemma {:induction false} LoopMatchesRun(calls: seq<CallRequest>, b: nat, env: Env, pass: nat, i: nat, results: seq<CallResult>, trips: nat, fuel: nat)
    requires b >= 1 && Conforms(Timed(env, b))
    requires i == Stride(pass, b) && |results| == |calls|
    requires fuel >= |PlanFrom(|calls|, b, i)|
    ensures Loop(calls, b, env, pass, i, results, trips, fuel)
         == Returned(Resume(results[..Min(i, |calls|)], trips, RunFrom(calls, b, Timed(env, b), i)).outcome,
                     Resume(results[..Min(i, |calls|)], trips, RunFrom(calls, b, Timed(env, b), i)).trips)
    decreases fuel
  {
    if i >= |calls| {
      assert results[..Min(i, |calls|)] + [] == results;
    } else {
      PlanFromHead(|calls|, b, i);
      TimedAt(env, b, pass, calls[i..Min(i + b, |calls|)]);
      var answer := env(pass)(i, calls[i..Min(i + b, |calls|)]);
      if answer.Decoded? {
        var written := Overwrite(results, i, answer.entries);
        var later, next := pass + 1, i + b;
        LoopMatchesRun(calls, b, env, later, next, written, trips + 1, fuel - 1);
        DecodedPassMatches(calls, b, env, pass, i, results, trips, fuel, answer.entries, written, later, next);
      } else {
        LoopFailedPass(calls, b, env, pass, i, results, trips, fuel);
        ResumeAtFailure(results[..i], trips, calls, b, Timed(env, b), i);
        assert results[..Min(i, |calls|)] == results[..i];
      }
    }
  }

  /** With a batch size of at least one and a decoder that returns one
      entry per request, the code as written returns what the Engine model
      returns for the same answers, after at most one loop pass per
      chunk. */
  lemma AsWrittenMatchesModel(cfg: MulticallConfig, calls: seq<CallRequest>, env: Env, fuel: nat)
    requires cfg.batchSize >= 1 && Conforms(Timed(env, cfg.batchSize))
    requires fuel >= CeilDiv(|calls|, cfg.batchSize)
    ensures MulticallRawAsWritten(cfg, calls, env, fuel)
         == Returned(Multicall(calls, cfg.batchSize, Timed(env, cfg.batchSize)).outcome,
                     Multicall(calls, cfg.batchSize, Timed(env, cfg.batchSize)).trips)
  {
    var results := seq(|calls|, _ => ZeroResult);
    PlanCount(|calls|, cfg.batchSize);
    LoopMatchesRun(calls, cfg.batchSize, env, 0, 0, results, 0, fuel);
    assert results[..0] == [];
  }

  // ---------------------------------------------------------------------
  // Any decoder

  /** With a batch size of at least one the index advances on every pass:
      given one unit of fuel per remaining chunk, the loop returns or
      panics, and is never still looping, whatever the decoder returns. */
  lemma {:induction false} PositiveBatchLoopEnds(calls: seq<CallRequest>, b: nat, env: Env, pass: nat, i: nat,
                                                 results: seq<CallResult>, trips: nat, fuel: nat)
    requires b >= 1 && fuel >= |PlanFrom(|calls|, b, i)|
    ensures Loop(calls, b, env, pass, i, results, trips, fuel) != Exhausted
    decreases fuel
  {
    if i < |calls| {
      PlanFromHead(|calls|, b, i);
      var hi := Min(i + b, |calls|);
      match env(pass)(i, calls[i..hi])
      case Failed(_) =>
      case Decoded(response) =>
        if i + |response| <= |results| {
          PositiveBatchLoopEnds(calls, b, env, pass + 1, i + b, Overwrite(results, i, response), trips + 1, fuel - 1);
        }
    }
  }

  /** `MulticallRaw` with a batch size of at least one ends within
      `ceil(N / B)` passes, whatever the decoder returns: it returns or
      panics. */
  lemma PositiveBatchEnds(cfg: MulticallConfig, calls: seq<CallRequest>, env: Env, fuel: nat)
    requires cfg.batchSize >= 1 && fuel >= CeilDiv(|calls|, cfg.batchSize)
    ensures MulticallRawAsWritten(cfg, calls, env, fuel) != Exhausted
  {
    PlanCount(|calls|, cfg.batchSize);
    PositiveBatchLoopEnds(calls, cfg.batchSize, env, 0, 0, seq(|calls|, _ => ZeroResult), 0, fuel);
  }

  /** The index of the `k`-th pass after the one at index `i`. */
  function PassStart(i: nat, b: nat, k: nat): nat
  {
    i + Stride(k, b)
  }

  /** The answer the `k`-th pass after pass `pass` (at index `i`) gets for
      its chunk. */
  function PassReply(calls: seq<CallRequest>, b: nat, env: Env, pass: nat, i: nat, k: nat): StepOutcome
    requires PassStart(i, b, k) <= |calls|
  {
    var s := PassStart(i, b, k);
    env(pass + k)(s, calls[s..Min(s + b, |calls|)])
  }

  /** The `k`-th pass happens, its chunk decodes, and the reply fits in a
      buffer of `room` slots, so the pass writes it without panicking. */
  predicate PassFits(calls: seq<CallRequest>, b: nat, env: Env, pass: nat, i: nat, k: nat, room: nat)
  {
    && PassStart(i, b, k) < |calls|
    && PassReply(calls, b, env, pass, i, k).Decoded?
    && PassStart(i, b, k) + |PassReply(calls, b, env, pass, i, k).entries| <= room
  }

  /** The `k`-th pass happens and its chunk fails. */
  predicate PassFails(calls: seq<CallRequest>, b: nat, env: Env, pass: nat, i: nat, k: nat)
  {
    PassStart(i, b, k) < |calls| && PassReply(calls, b, env, pass, i, k).Failed?
  }

  /** The passes after the first are the passes from the next pass number
      `later` and index `next` (named rather than summed, so that the
      induction below matches them word for word). */
  lemma PassShift(calls: seq<CallRequest>, b: nat, env: Env, pass: nat, i: nat, k: nat, later: nat, next: nat, room: nat)
    requires later == pass + 1 && next == i + b
    ensures PassStart(next, b, k) == PassStart(i, b, k + 1)
    ensures PassFits(calls, b, env, later, next, k, room) == PassFits(calls, b, env, pass, i, k + 1, room)
    ensures PassFails(calls, b, env, later, next, k) == PassFails(calls, b, env, pass, i, k + 1)
    ensures PassStart(next, b, k) <= |calls| ==>
      PassReply(calls, b, env, later, next, k) == PassReply(calls, b, env, pass, i, k + 1)
  {
    assert PassStart(i, b, k + 1) == next + Stride(k, b);
    assert pass + (k + 1) == later + k;
  }

  /** After one pass, the passes still to come are the same passes counted
      from the next pass number `later` and index `next`: those before `q`
      still fit and pass `q` still fails. */
  lemma FitsAfterPass(calls: seq<CallRequest>, b: nat, env: Env, pass: nat, i: nat, q: nat, room: nat, later: nat, next: nat)
    requires later == pass + 1 && next == i + b && q >= 1
    requires forall k: nat :: k < q ==> PassFits(calls, b, env, pass, i, k, room)
    requires PassFails(calls, b, env, pass, i, q)
    ensures forall k: nat :: k < q - 1 ==> PassFits(calls, b, env, later, next, k, room)
    ensures PassFails(calls, b, env, later, next, q - 1)
    ensures PassStart(next, b, q - 1) == PassStart(i, b, q)
    ensures PassReply(calls, b, env, later, next, q - 1) == PassReply(calls, b, env, pass, i, q)
  {
    forall k: nat | k < q - 1
      ensures PassFits(calls, b, env, later, next, k, room)
    {
      PassShift(calls, b, env, pass, i, k, later, next, room);
    }
    PassShift(calls, b, env, pass, i, q - 1, later, next, room);
  }

  /** One decoded pass before the failing one: if the loop from the next
      pass ends at the failure, so does the loop from this pass, one
      invocation later. The last requires is word for word the ensures of
      the recursive call in LoopFirstFailure. */
  lemma FailureAfterDecodedPass(calls: seq<CallRequest>, b: nat, env: Env, pass: nat, i: nat, results: seq<CallResult>, trips: nat, fuel: nat,
                                q: nat, response: seq<CallResult>, written: seq<CallResult>, later: nat, next: nat)
    requires fuel > 0 && q >= 1
    requires later == pass + 1 && next == i + b
    requires PassFits(calls, b, env, pass, i, 0, |results|)
    requires response == PassReply(calls, b, env, pass, i, 0).entries
    requires written == Overwrite(results, i, response)
    requires PassFails(calls, b, env, pass, i, q)
    requires PassStart(next, b, q - 1) == PassStart(i, b, q)
    requires PassReply(calls, b, env, later, next, q - 1) == PassReply(calls, b, env, pass, i, q)
    requires Loop(calls, b, env, later, next, written, trips + 1, fuel - 1)
          == Returned(Err(MulticallError(PassReply(calls, b, env, later, next, q - 1).failure, PassStart(next, b, q - 1))),
                      trips + 1 + (q - 1) + TripCost(PassReply(calls, b, env, later, next, q - 1).failure))
    ensures Loop(calls, b, env, pass, i, results, trips, fuel)
         == Returned(Err(MulticallError(PassReply(calls, b, env, pass, i, q).failure, PassStart(i, b, q))),
                     trips + q + TripCost(PassReply(calls, b, env, pass, i, q).failure))
  {
    assert PassStart(i, b, 0) == i;
    LoopDecodedPass(calls, b, env, pass, i, results, trips, fuel);
  }

  /** Whatever the decoder returns, the first pass `q` whose chunk fails
      ends the loop with that failure at that chunk's start, after one
      invocation per earlier pass, provided no earlier reply overran the
      buffer. Later chunks are never sent. */
  lemma {:induction false} LoopFirstFailure(calls: seq<CallRequest>, b: nat, env: Env, pass: nat, i: nat,
                                            results: seq<CallResult>, trips: nat, fuel: nat, q: nat)
    requires q < fuel
    requires forall k: nat :: k < q ==> PassFits(calls, b, env, pass, i, k, |results|)
    requires PassFails(calls, b, env, pass, i, q)
    ensures Loop(calls, b, env, pass, i, results, trips, fuel)
         == Returned(Err(MulticallError(PassReply(calls, b, env, pass, i, q).failure, PassStart(i, b, q))),
                     trips + q + TripCost(PassReply(calls, b, env, pass, i, q).failure))
    decreases q
  {
    assert PassStart(i, b, 0) == i;
    if q == 0 {
      LoopFailedPass(calls, b, env, pass, i, results, trips, fuel);
    } else {
      assert PassFits(calls, b, env, pass, i, 0, |results|);
      var response := PassReply(calls, b, env, pass, i, 0).entries;
      var written := Overwrite(results, i, response);
      var later, next := pass + 1, i + b;
      FitsAfterPass(calls, b, env, pass, i, q, |written|, later, next);
      LoopFirstFailure(calls, b, env, later, next, written, trips + 1, fuel - 1, q - 1);
      FailureAfterDecodedPass(calls, b, env, pass, i, results, trips, fuel, q, response, written, later, next);
    }
  }

  /** `MulticallRaw` as written, for any decoder and any batch size `B`
      that is not negative: if pass `q` is the first whose chunk fails and
      no earlier reply was longer than the slots left, the call returns
      that failure at index `q * B`, no results, after `q` invocations plus
      the failing one's. */
  lemma FirstFailedPassEndsCall(cfg: MulticallConfig, calls: seq<CallRequest>, env: Env, q: nat, fuel: nat)
    requires cfg.batchSize >= 0 && q < fuel
    requires forall k: nat :: k < q ==> PassFits(calls, cfg.batchSize, env, 0, 0, k, |calls|)
    requires PassFails(calls, cfg.batchSize, env, 0, 0, q)
    ensures MulticallRawAsWritten(cfg, calls, env, fuel)
         == Returned(Err(MulticallError(PassReply(calls, cfg.batchSize, env, 0, 0, q).failure, q * cfg.batchSize)),
                     q + TripCost(PassReply(calls, cfg.batchSize, env, 0, 0, q).failure))
  {
    StrideIsProduct(q, cfg.batchSize);
    LoopFirstFailure(calls, cfg.batchSize, env, 0, 0, seq(|calls|, _ => ZeroResult), 0, fuel, q);
  }

  // ---------------------------------------------------------------------
  // Batch sizes below one

  /** With batch size 0 the index never leaves 0: every pass sends the
      empty chunk `calls[0:0]` at index 0. Whatever the environment answers,
      the loop never succeeds; if it returns at all, it returns the error of
      a failed send, at index 0. */
  lemma {:induction false} ZeroBatchLoopNeverSucceeds(calls: seq<CallRequest>, env: Env, pass: nat, results: seq<CallResult>, trips: nat, fuel: nat)
    requires |calls| > 0
    ensures Loop(calls, 0, env, pass, 0, results, trips, fuel).Returned? ==>
      && Loop(calls, 0, env, pass, 0, results, trips, fuel).outcome.Err?
      && Loop(calls, 0, env, pass, 0, results, trips, fuel).outcome.error.chunkStart == 0
    decreases fuel
  {
    if fuel > 0 {
      assert calls[0..Min(0, |calls|)] == [];
      match env(pass)(0, [])
      case Failed(_) =>
      case Decoded(response) =>
        if |response| <= |results| {
          ZeroBatchLoopNeverSucceeds(calls, env, pass + 1, Overwrite(results, 0, response), trips + 1, fuel - 1);
        }
    }
  }

  /** `MulticallRaw` with `BatchSize == 0` and at least one call never
      returns results: it keeps sending the empty chunk until a send fails
      (at the latest when the deadline expires) and then reports that
      failure at index 0, or it panics. */
  lemma ZeroBatchNeverSucceeds(cfg: MulticallConfig, calls: seq<CallRequest>, env: Env, fuel: nat)
    requires cfg.batchSize == 0 && |calls| > 0
    ensures MulticallRawAsWritten(cfg, calls, env, fuel).Returned? ==>
      && MulticallRawAsWritten(cfg, calls, env, fuel).outcome.Err?
      && MulticallRawAsWritten(cfg, calls, env, fuel).outcome.error.chunkStart == 0
  {
    ZeroBatchLoopNeverSucceeds(calls, env, 0, seq(|calls|, _ => ZeroResult), 0, fuel);
  }

  /** On pass `p` the empty chunk at index 0 is answered, with a reply no
      longer than the `room` slots of the buffer, so that writing it does
      not panic. */
  predicate EmptyChunkAnswered(env: Env, p: nat, room: nat)
  {
    env(p)(0, []).Decoded? && |env(p)(0, []).entries| <= room
  }

  /** With batch size 0, while every send of the empty chunk is answered
      with a reply that fits the buffer, the loop re-sends it and does not
      return. */
  lemma {:induction false} ZeroBatchSpins(calls: seq<CallRequest>, env: Env, pass: nat, results: seq<CallResult>, trips: nat, fuel: nat)
    requires |calls| > 0
    requires forall p :: pass <= p < pass + fuel ==> EmptyChunkAnswered(env, p, |results|)
    ensures Loop(calls, 0, env, pass, 0, results, trips, fuel) == Exhausted
    decreases fuel
  {
    if fuel > 0 {
      assert calls[0..Min(0, |calls|)] == [];
      assert EmptyChunkAnswered(env, pass, |results|);
      var written := Overwrite(results, 0, env(pass)(0, []).entries);
      ZeroBatchSpins(calls, env, pass + 1, written, trips + 1, fuel - 1);
    }
  }

  /** With batch size 0, the first pass `q` whose send of the empty chunk
      fails ends the loop, provided every earlier reply fit the buffer: the
      error is that failure at index 0, after one invocation for each
      earlier pass. */
  lemma {:induction false} ZeroBatchUntilFailure(calls: seq<CallRequest>, env: Env, pass: nat, q: nat, results: seq<CallResult>, trips: nat, fuel: nat)
    requires |calls| > 0 && pass <= q < pass + fuel
    requires forall p :: pass <= p < q ==> EmptyChunkAnswered(env, p, |results|)
    requires env(q)(0, []).Failed?
    ensures Loop(calls, 0, env, pass, 0, results, trips, fuel)
         == Returned(Err(MulticallError(env(q)(0, []).failure, 0)), trips + (q - pass) + TripCost(env(q)(0, []).failure))
    decreases q - pass
  {
    assert calls[0..Min(0, |calls|)] == [];
    if pass < q {
      assert EmptyChunkAnswered(env, pass, |results|);
      var written := Overwrite(results, 0, env(pass)(0, []).entries);
      ZeroBatchUntilFailure(calls, env, pass + 1, q, written, trips + 1, fuel - 1);
    }
  }

  /** `MulticallRaw` with `BatchSize == 0`: the empty chunk is sent on pass
      after pass until the first send that fails, typically on the deadline
      of `Timeout`; if no earlier reply overran the buffer, the call then
      returns that error at index 0 and no results. */
  lemma ZeroBatchEndsAtFailedSend(cfg: MulticallConfig, calls: seq<CallRequest>, env: Env, q: nat, fuel: nat)
    requires cfg.batchSize == 0 && |calls| > 0 && q < fuel
    requires forall p: nat :: p < q ==> EmptyChunkAnswered(env, p, |calls|)
    requires env(q)(0, []).Failed?
    ensures MulticallRawAsWritten(cfg, calls, env, fuel)
         == Returned(Err(MulticallError(env(q)(0, []).failure, 0)), q + TripCost(env(q)(0, []).failure))
  {
    ZeroBatchUntilFailure(calls, env, 0, q, seq(|calls|, _ => ZeroResult), 0, fuel);
  }

  /** A negative batch size makes the first slice expression
      `calls[0:BatchSize]` go out of range. */
  lemma NegativeBatchPanics(cfg: MulticallConfig, calls: seq<CallRequest>, env: Env, fuel: nat)
    requires cfg.batchSize < 0 && |calls| > 0 && fuel > 0
    ensures MulticallRawAsWritten(cfg, calls, env, fuel) == Panicked
  {
  }

  // ---------------------------------------------------------------------
  // Decoder replies of the wrong length

  /** The reply the loop gets on its `k`-th pass after pass `pass` at index
      `i` reaches slot `x`: that pass happens (its index is below the
      number of calls), its chunk decodes, and the reply is long enough to
      be written at `x`. */
  predicate ReachesAt(calls: seq<CallRequest>, b: int, env: Env, pass: nat, i: nat, k: nat, x: int)
  {
    && b >= 0
    && var s := i + Stride(k, b as nat);
       && s < |calls|
       && var reply := env(pass + k)(s, calls[s..Min(s + b, |calls|)]);
          && reply.Decoded?
          && s <= x < s + |reply.entries|
  }

  /** The passes after the first are the passes from the next index. */
  lemma ReachesAtShift(calls: seq<CallRequest>, b: int, env: Env, pass: nat, i: nat, k: nat, x: int)
    requires b >= 0
    ensures ReachesAt(calls, b, env, pass + 1, i + b, k, x) == ReachesAt(calls, b, env, pass, i, k + 1, x)
  {
    assert i + Stride(k + 1, b as nat) == (i + b) + Stride(k, b as nat);
    assert pass + (k + 1) == (pass + 1) + k;
  }

  /** A slot that no reply from pass `pass` on reaches is not reached by
      any reply from the next pass on either. */
  lemma UnreachedAfterPass(calls: seq<CallRequest>, b: int, env: Env, pass: nat, i: nat, x: nat, later: nat, next: nat)
    requires b >= 0 && later == pass + 1 && next == i + b
    requires forall k :: !ReachesAt(calls, b, env, pass, i, k, x)
    ensures forall k :: !ReachesAt(calls, b, env, later, next, k, x)
  {
    forall k: nat
      ensures !ReachesAt(calls, b, env, later, next, k, x)
    {
      ReachesAtShift(calls, b, env, pass, i, k, x);
    }
  }

  /** A slot that no reply reaches keeps the value it had when the loop
      started. */
  lemma {:induction false} LoopLeavesUnreachedSlots(calls: seq<CallRequest>, b: int, env: Env, pass: nat, i: nat,
                                                    results: seq<CallResult>, trips: nat, fuel: nat, x: nat)
    requires x < |results|
    requires forall k :: !ReachesAt(calls, b, env, pass, i, k, x)
    ensures Loop(calls, b, env, pass, i, results, trips, fuel).Returned?
         && Loop(calls, b, env, pass, i, results, trips, fuel).outcome.Ok?
        ==> Loop(calls, b, env, pass, i, results, trips, fuel).outcome.results[x] == results[x]
    decreases fuel
  {
    if i < |calls| && fuel > 0 && b >= 0 {
      var hi := Min(i + b, |calls|);
      match env(pass)(i, calls[i..hi])
      case Failed(_) =>
      case Decoded(response) =>
        if i + |response| <= |results| {
          assert !ReachesAt(calls, b, env, pass, i, 0, x);
          assert !(i <= x < i + |response|);
          var written := Overwrite(results, i, response);
          var later, next: nat := pass + 1, i + b;
          UnreachedAfterPass(calls, b, env, pass, i, x, later, next);
          assert written[x] == results[x];
          LoopLeavesUnreachedSlots(calls, b, env, later, next, written, trips + 1, fuel - 1, x);
        }
    }
  }

  /** The decoder's reply length is never checked: a successful call
      always hands back one result per call, and a slot that no reply
      reached, because the replies were too short, keeps the zero value
      `{false, nil}`, indistinguishable from a call that failed on chain. */
  lemma UnansweredSlotKeepsZeroValue(cfg: MulticallConfig, calls: seq<CallRequest>, env: Env, fuel: nat, x: nat)
    requires x < |calls|
    requires forall k :: !ReachesAt(calls, cfg.batchSize, env, 0, 0, k, x)
    ensures MulticallRawAsWritten(cfg, calls, env, fuel).Returned?
         && MulticallRawAsWritten(cfg, calls, env, fuel).outcome.Ok?
        ==> && |MulticallRawAsWritten(cfg, calls, env, fuel).outcome.results| == |calls|
            && MulticallRawAsWritten(cfg, calls, env, fuel).outcome.results[x] == ZeroResult
  {
    LoopLeavesUnreachedSlots(calls, cfg.batchSize, env, 0, 0, seq(|calls|, _ => ZeroResult), 0, fuel, x);
  }

  /** A request used by the concrete scenarios below. */
  const SomeRequest: CallRequest := CallRequest(ZeroAddress, false, [])

  /** A reply that would belong to some request. */
  const SomeReply: CallResult := CallResult(true, [1])

  /** A reply that would belong to another request. */
  const OtherReply: CallResult := CallResult(true, [2])

  /** A configuration with batches of one call. */
  const OnePerBatch: MulticallConfig := MulticallConfig(Client(0), ZeroAddress, 1, Second)

  /** A decoder that returns fewer entries than the chunk had requests is
      not noticed: the call succeeds and the unanswered slot keeps its
      zero value. */
  lemma ShortDecodeKeepsZeroValue()
    ensures MulticallRawAsWritten(OnePerBatch, [SomeRequest],
                                  (p: nat) => (i: nat, batch: seq<CallRequest>) => Decoded([]), 1)
         == Returned(Ok([ZeroResult]), 1)
  {
    var results := seq(1, _ => ZeroResult);
    assert Overwrite(results, 0, []) == [ZeroResult];
  }

  /** A decoder that returns more entries than there are slots left makes
      `results[i+j]` go out of range. */
  lemma LongDecodePanics()
    ensures MulticallRawAsWritten(OnePerBatch, [SomeRequest],
                                  (p: nat) => (i: nat, batch: seq<CallRequest>) => Decoded([SomeReply, SomeReply]), 1)
         == Panicked
  {
  }

  /** A reply with more entries than its chunk had requests overwrites the
      next chunk's slots: with batches of one call, a first reply of two
      entries and an empty second reply, the call succeeds and the second
      call's result came from the first chunk's reply. */
  lemma LongDecodeFillsNextChunk()
    ensures MulticallRawAsWritten(OnePerBatch, [SomeRequest, SomeRequest],
                                  (p: nat) => (i: nat, batch: seq<CallRequest>) =>
                                    if p == 0 then Decoded([SomeReply, OtherReply]) else Decoded([]), 2)
         == Returned(Ok([SomeReply, OtherReply]), 2)
  {
    var zeros := seq(2, _ => ZeroResult);
    assert Overwrite(zeros, 0, [SomeReply, OtherReply]) == [SomeReply, OtherReply];
    assert Overwrite([SomeReply, OtherReply], 1, []) == [SomeReply, OtherReply];
  }

  /** Without one entry per request the Engine's promises do not carry over
      to the code: with batches of one call, a first reply of three entries
      and a failing second chunk, the Engine model reports the failure of
      chunk 1, but the code as written panics writing `results[2]` before
      it sends chunk 1. */
  lemma OverrunPanicsBeforeLaterFailure()
    ensures var env: Env := (p: nat) => (i: nat, batch: seq<CallRequest>) =>
              if p == 0 then Decoded([SomeReply, SomeReply, SomeReply]) else Failed(Call);
      && MulticallRawAsWritten(OnePerBatch, [SomeRequest, SomeRequest], env, 2) == Panicked
      && Multicall([SomeRequest, SomeRequest], 1, Timed(env, 1)).outcome == Err(MulticallError(Call, 1))
  {
    var env: Env := (p: nat) => (i: nat, batch: seq<CallRequest>) =>
      if p == 0 then Decoded([SomeReply, SomeReply, SomeReply]) else Failed(Call);
    var calls := [SomeRequest, SomeRequest];
    var step := Timed(env, 1);
    assert calls[0..Min(0 + 1, 2)] == [SomeRequest] && calls[1..Min(1 + 1, 2)] == [SomeRequest];
    assert step(0, [SomeRequest]).Decoded? && step(1, [SomeRequest]) == Failed(Call);
    assert RunFrom(calls, 1, step, 1).outcome == Err(MulticallError(Call, 1));
  }
}

=== FILE: engine.dfy ===
/** The aggregation engine, `MulticallRaw` (service.go:44-88): walk the
    calls in chunks of `BatchSize`, send each chunk to the aggregator
    contract as one `aggregate3` invocation, and write the decoded entries
    of the chunk that starts at `i` into `results[i:]`.

    Packing the chunk, the remote call and unpacking the reply are one
    step of the environment, a `Step` the caller supplies: the model never
    looks inside the contract ABI codec or the RPC client. */
module Engine {
  import opened Model
  import opened Planner

  /** Which of the three per-chunk operations failed. */
  datatype ErrorKind =
    | Pack    // multicallABI.Pack
    | Call    // Client.CallContract, including an expired deadline
    | Unpack  // multicallABI.UnpackIntoInterface

  /** The error `MulticallRaw` wraps: the failed operation and the start
      index of the chunk it failed on (the `%d` of service.go:58, 69, 78). */
  datatype MulticallError = MulticallError(kind: ErrorKind, chunkStart: nat)

  /** What `MulticallRaw` returns: every result, or an error and no results
      at all (Go's `nil, err`). */
  datatype Outcome = Ok(results: seq<CallResult>) | Err(error: MulticallError)

  /** What packing, calling and unpacking one chunk yields. */
  datatype StepOutcome = Decoded(entries: seq<CallResult>) | Failed(failure: ErrorKind)

  /** The environment's answer to the chunk that starts at index `i`. The
      start index is an argument so that the environment may answer
      differently as time passes, as it does when the shared deadline runs
      out while later chunks are sent. */
  type Step = (nat, seq<CallRequest>) -> StepOutcome

  /** The decoder returns exactly one entry per request of the chunk. The
      source relies on this without checking it (service.go:82-84); every
      property of the engine that talks about result positions assumes it. */
  ghost predicate Conforms(step: Step)
  {
    forall i: nat, batch: seq<CallRequest> :: step(i, batch).Decoded? ==> |step(i, batch).entries| == |batch|
  }

  /** Remote invocations a failed chunk cost: a chunk that could not be
      packed never reached the network. */
  function TripCost(kind: ErrorKind): nat
  {
    if kind == Pack then 0 else 1
  }

  /** An outcome together with the number of remote invocations
      (`CallContract` calls) made to reach it. */
  datatype Run = Run(outcome: Outcome, trips: nat)

  /** The requests chunk `c` carries. Every chunk of a plan is a valid
      slice of the call list; any other range carries nothing. */
  function Batch(calls: seq<CallRequest>, c: Chunk): seq<CallRequest>
  {
    if c.start <= c.end <= |calls| then calls[c.start..c.end] else []
  }

  /** The environment's answer for chunk `c` of `calls`. */
  function ChunkStep(calls: seq<CallRequest>, step: Step, c: Chunk): StepOutcome
  {
    step(c.start, Batch(calls, c))
  }

  /** Every chunk of `p` decodes. */
  predicate AllDecode(calls: seq<CallRequest>, step: Step, p: seq<Chunk>)
  {
    forall k :: 0 <= k < |p| ==> ChunkStep(calls, step, p[k]).Decoded?
  }

  /** Chunk `k` is the first chunk of `p` that fails. */
  predicate FirstFailure(calls: seq<CallRequest>, step: Step, p: seq<Chunk>, k: nat)
  {
    && k < |p|
    && ChunkStep(calls, step, p[k]).Failed?
    && forall k' :: 0 <= k' < k ==> ChunkStep(calls, step, p[k']).Decoded?
  }

  /** The chunk the loop sends from `i` is the first chunk from `i`. */
  lemma HeadStep(calls: seq<CallRequest>, b: nat, step: Step, i: nat)
    requires b >= 1 && i < |calls|
    ensures |PlanFrom(|calls|, b, i)| == |PlanFrom(|calls|, b, i + b)| + 1
    ensures PlanFrom(|calls|, b, i)[0] == Chunk(i, Min(i + b, |calls|))
    ensures ChunkStep(calls, step, PlanFrom(|calls|, b, i)[0]) == step(i, calls[i..Min(i + b, |calls|)])
  {
    PlanFromHead(|calls|, b, i);
  }

  /** The chunks from `i` all decode exactly when the first one does and
      the chunks from `i + b` all do. */
  lemma AllDecodeFrom(calls: seq<CallRequest>, b: nat, step: Step, i: nat)
    requires b >= 1 && i < |calls|
    ensures AllDecode(calls, step, PlanFrom(|calls|, b, i))
       <==> step(i, calls[i..Min(i + b, |calls|)]).Decoded? && AllDecode(calls, step, PlanFrom(|calls|, b, i + b))
  {
    var p := PlanFrom(|calls|, b, i);
    var p' := PlanFrom(|calls|, b, i + b);
    HeadStep(calls, b, step, i);
    if AllDecode(calls, step, p) {
      assert ChunkStep(calls, step, p[0]).Decoded?;
      forall k | 0 <= k < |p'|
        ensures ChunkStep(calls, step, p'[k]).Decoded?
      {
        PlanFromTail(|calls|, b, i, k + 1);
      }
    }
    if step(i, calls[i..Min(i + b, |calls|)]).Decoded? && AllDecode(calls, step, p') {
      forall k | 0 <= k < |p|
        ensures ChunkStep(calls, step, p[k]).Decoded?
      {
        if k > 0 {
          PlanFromTail(|calls|, b, i, k);
        }
      }
    }
  }

  /** The reference definition: the chunks from index `i` on, processed in
      order, the first failure ending the run. */
  function RunFrom(calls: seq<CallRequest>, b: nat, step: Step, i: nat): Run
    requires b >= 1
    decreases |calls| - i
  {
    if i >= |calls| then Run(Ok([]), 0)
    else
      var end := Min(i + b, |calls|);
      match step(i, calls[i..end])
      case Failed(kind) => Run(Err(MulticallError(kind, i)), TripCost(kind))
      case Decoded(entries) =>
        var rest := RunFrom(calls, b, step, i + b);
        Run(if rest.outcome.Ok? then Ok(entries + rest.outcome.results) else rest.outcome, 1 + rest.trips)
  }

  /** A run from `i` succeeds exactly when every chunk from `i` on decodes;
      it then makes one remote invocation per chunk and, with a conforming
      decoder, yields one result per call from `i` on. A failed run never
      makes more invocations than there are chunks. */
  lemma {:induction false} RunFromShape(calls: seq<CallRequest>, b: nat, step: Step, i: nat)
    requires b >= 1
    ensures RunFrom(calls, b, step, i).outcome.Ok? <==> AllDecode(calls, step, PlanFrom(|calls|, b, i))
    ensures RunFrom(calls, b, step, i).outcome.Ok? ==> RunFrom(calls, b, step, i).trips == |PlanFrom(|calls|, b, i)|
    ensures RunFrom(calls, b, step, i).trips <= |PlanFrom(|calls|, b, i)|
    ensures Conforms(step) && RunFrom(calls, b, step, i).outcome.Ok? ==>
      |RunFrom(calls, b, step, i).outcome.results| == |calls| - Min(i, |calls|)
    decreases |calls| - i
  {
    if i < |calls| {
      PlanFromHead(|calls|, b, i);
      AllDecodeFrom(calls, b, step, i);
      RunFromShape(calls, b, step, i + b);
    }
  }

  /** An error from `i` on names a chunk start within the calls still to
      do. */
  lemma {:induction false} RunFromErrorInRange(calls: seq<CallRequest>, b: nat, step: Step, i: nat)
    requires b >= 1
    ensures RunFrom(calls, b, step, i).outcome.Err? ==>
      i <= RunFrom(calls, b, step, i).outcome.error.chunkStart < |calls|
    decreases |calls| - i
  {
    if i < |calls| {
      RunFromErrorInRange(calls, b, step, i + b);
    }
  }

  /** The whole `MulticallRaw` call, as a function of its inputs. No calls
      means no invocation and no results; an error names an index below
      the number of calls. */
  function Multicall(calls: seq<CallRequest>, b: nat, step: Step): (r: Run)
    requires b >= 1
    ensures |calls| == 0 ==> r == Run(Ok([]), 0)
    ensures r.outcome.Err? ==> r.outcome.error.chunkStart < |calls|
  {
    RunFromErrorInRange(calls, b, step, 0);
    RunFrom(calls, b, step, 0)
  }

  /** A run that starts after `prefix` results have already been written
      and `trips` invocations made. */
  function Resume(prefix: seq<CallResult>, trips: nat, run: Run): Run
  {
    Run(if run.outcome.Ok? then Ok(prefix + run.outcome.results) else run.outcome, trips + run.trips)
  }

  /** One more chunk decoded: its entries join the written prefix. */
  lemma ResumeAfterChunk(prefix: seq<CallResult>, trips: nat, calls: seq<CallRequest>, b: nat, step: Step, i: nat)
    requires b >= 1 && i < |calls|
    requires step(i, calls[i..Min(i + b, |calls|)]).Decoded?
    ensures Resume(prefix, trips, RunFrom(calls, b, step, i))
         == Resume(prefix + step(i, calls[i..Min(i + b, |calls|)]).entries, trips + 1, RunFrom(calls, b, step, i + b))
  {
    var entries := step(i, calls[i..Min(i + b, |calls|)]).entries;
    var rest := RunFrom(calls, b, step, i + b);
    if rest.outcome.Ok? {
      assert prefix + (entries + rest.outcome.results) == (prefix + entries) + rest.outcome.results;
    }
  }

  /** A chunk failed: the run ends with its error. */
  lemma ResumeAtFailure(prefix: seq<CallResult>, trips: nat, calls: seq<CallRequest>, b: nat, step: Step, i: nat)
    requires b >= 1 && i < |calls|
    requires step(i, calls[i..Min(i + b, |calls|)]).Failed?
    ensures var kind := step(i, calls[i..Min(i + b, |calls|)]).failure;
      Resume(prefix, trips, RunFrom(calls, b, step, i)) == Run(Err(MulticallError(kind, i)), trips + TripCost(kind))
  {
  }

  /** The buffer after `results[i+j] = response[j]` for every `j`: the
      slots from `i` on take the response and no other slot changes. */
  function Overwrite(results: seq<CallResult>, i: nat, response: seq<CallResult>): (r: seq<CallResult>)
    requires i + |response| <= |results|
    ensures |r| == |results|
    ensures forall x :: 0 <= x < |r| ==> r[x] == if i <= x < i + |response| then response[x - i] else results[x]
  {
    results[..i] + response + results[i + |response|..]
  }

  /** `for j := range response { results[i+j] = response[j] }`, one slot
      at a time: the result is the overwritten buffer, so the entries
      overwrite the slots from `i` on and no other slot changes. */
  method Scatter(results: seq<CallResult>, i: nat, response: seq<CallResult>) returns (written: seq<CallResult>)
    requires i + |response| <= |results|
    ensures written == Overwrite(results, i, response)
    ensures |written| == |results|
    ensures written[..i] == results[..i]
    ensures written[i..i + |response|] == response
    ensures written[i + |response|..] == results[i + |response|..]
  {
    written := results;
    var j := 0;
    while j < |response|
      invariant 0 <= j <= |response|
      invariant |written| == |results|
      invariant forall x :: 0 <= x < |written| ==>
        written[x] == if i <= x < i + j then response[x - i] else results[x]
    {
      written := written[i + j := response[j]];
      j := j + 1;
    }
    assert written == Overwrite(results, i, response);
    OverwriteSlices(results, i, response);
  }

  /** The overwritten buffer read as three slices: the prefix before `i`,
      the response, and the untouched rest. */
  lemma OverwriteSlices(results: seq<CallResult>, i: nat, response: seq<CallResult>)
    requires i + |response| <= |results|
    ensures Overwrite(results, i, response)[..i] == results[..i]
    ensures Overwrite(results, i, response)[i..i + |response|] == response
    ensures Overwrite(results, i, response)[i + |response|..] == results[i + |response|..]
  {
    var written := Overwrite(results, i, response);
    assert written == results[..i] + response + results[i + |response|..];
  }

  /** One pass of the loop keeps the run it still owes unchanged: the
      decoded chunk moves from the run into the written prefix. */
  lemma LoopStep(calls: seq<CallRequest>, b: nat, step: Step, i: nat, before: seq<CallResult>, trips: nat, written: seq<CallResult>)
    requires b >= 1 && Conforms(step) && i < |calls| == |before| == |written|
    requires step(i, calls[i..Min(i + b, |calls|)]).Decoded?
    requires written[..i] == before[..i]
    requires written[i..Min(i + b, |calls|)] == step(i, calls[i..Min(i + b, |calls|)]).entries
    ensures Resume(before[..Min(i, |calls|)], trips, RunFrom(calls, b, step, i))
         == Resume(written[..Min(i + b, |calls|)], trips + 1, RunFrom(calls, b, step, i + b))
  {
    var end := Min(i + b, |calls|);
    assert written[..end] == written[..i] + written[i..end];
    ResumeAfterChunk(before[..i], trips, calls, b, step, i);
  }

  /** The rest of one loop pass after a chunk decoded: its entries are
      scattered into the buffer, one more invocation is counted, the index
      moves to the next chunk, and the run still owed is unchanged. The
      ghost `goal` is the loop invariant's target, the call's total: it is
      passed in so that this contract can state the invariant for the new
      values, which keeps that proof out of the loop body, where the
      verifier handles it far less efficiently. */
  method Advance(calls: seq<CallRequest>, b: nat, step: Step, i: nat, results: seq<CallResult>, trips: nat, ghost goal: Run)
    returns (i': nat, written: seq<CallResult>, trips': nat)
    requires b >= 1 && Conforms(step) && i < |calls| == |results|
    requires step(i, calls[i..Min(i + b, |calls|)]).Decoded?
    requires goal == Resume(results[..Min(i, |calls|)], trips, RunFrom(calls, b, step, i))
    ensures i' == i + b && trips' == trips + 1 && |written| == |calls|
    ensures written[..i] == results[..i]
    ensures written[i..Min(i + b, |calls|)] == step(i, calls[i..Min(i + b, |calls|)]).entries
    ensures written[Min(i + b, |calls|)..] == results[Min(i + b, |calls|)..]
    ensures goal == Resume(written[..Min(i', |calls|)], trips', RunFrom(calls, b, step, i'))
  {
    var entries := step(i, calls[i..Min(i + b, |calls|)]).entries;
    assert i + |entries| == Min(i + b, |calls|);
    written := Scatter(results, i, entries);
    LoopStep(calls, b, step, i, results, trips, written);
    i', trips' := i + b, trips + 1;
  }

  /** `MulticallRaw`: the loop of service.go:54-85 over a result buffer made
      with one zero-valued slot per call. It needs a batch size of at least
      one: with zero the index never advances (see the AsWritten module).
      `trips` counts the remote invocations made, which the Go function
      does not return but the network observes. */
  method MulticallRaw(cfg: MulticallConfig, calls: seq<CallRequest>, step: Step) returns (outcome: Outcome, trips: nat)
    requires cfg.batchSize >= 1
    requires Conforms(step)
    ensures Run(outcome, trips) == Multicall(calls, cfg.batchSize, step)
    ensures outcome.Ok? ==> |outcome.results| == |calls|
    ensures |calls| == 0 ==> outcome == Ok([]) && trips == 0
  {
    var b: nat := cfg.batchSize;
    var n := |calls|;
    var results := seq(n, _ => ZeroResult);
    trips := 0;
    var i: nat := 0;
    ghost var goal := Multicall(calls, b, step);
    assert results[..Min(0, n)] == [];
    assert goal == Resume(results[..Min(0, n)], 0, RunFrom(calls, b, step, 0));
    while i < n
      invariant |results| == n
      invariant goal == Resume(results[..Min(i, n)], trips, RunFrom(calls, b, step, i))
      decreases n - i
    {
      var end := Min(i + b, n);
      var answer := step(i, calls[i..end]);
      if answer.Failed? {
        ResumeAtFailure(results[..i], trips, calls, b, step, i);
        outcome := Err(MulticallError(answer.failure, i));
        trips := trips + TripCost(answer.failure);
        return;
      }
      i, results, trips := Advance(calls, b, step, i, results, trips, goal);
    }
    assert results[..Min(i, n)] == results;
    outcome := Ok(results);
  }

  // ---------------------------------------------------------------------
  // Where the results land

  /** A successful run from `i` is the first chunk's entries followed by
      the successful run from `i + b`. */
  lemma RunFromOkCons(calls: seq<CallRequest>, b: nat, step: Step, i: nat)
    requires b >= 1 && i < |calls|
    requires RunFrom(calls, b, step, i).outcome.Ok?
    ensures step(i, calls[i..Min(i + b, |calls|)]).Decoded?
    ensures RunFrom(calls, b, step, i + b).outcome.Ok?
    ensures RunFrom(calls, b, step, i).outcome.results
         == step(i, calls[i..Min(i + b, |calls|)]).entries + RunFrom(calls, b, step, i + b).outcome.results
  {
  }

  /** A successful run from `i` continues successfully from `i + b`. */
  lemma RunFromOkTail(calls: seq<CallRequest>, b: nat, step: Step, i: nat)
    requires b >= 1 && i < |calls|
    requires RunFrom(calls, b, step, i).outcome.Ok?
    ensures RunFrom(calls, b, step, i + b).outcome.Ok?
  {
  }

  /** Indexing the first part of a concatenation. */
  lemma ConsIndexLeft<T>(whole: seq<T>, first: seq<T>, second: seq<T>, t: nat)
    requires whole == first + second && t < |first|
    ensures t < |whole| && whole[t] == first[t]
  {
  }

  /** Indexing past the first part of a concatenation indexes the second. */
  lemma ConsIndexRight<T>(whole: seq<T>, first: seq<T>, second: seq<T>, off: nat, t: nat)
    requires whole == first + second && off == |first| + t && t < |second|
    ensures off < |whole| && whole[off] == second[t]
  {
  }

  /** In the successful run from `i`, the chunk at `s` decoded, and its
      entry `j` is the result at that chunk's `j`-th position (offsets
      relative to `i`). */
  ghost predicate LandsAt(calls: seq<CallRequest>, b: nat, step: Step, i: nat, s: nat, j: nat)
  {
    && b >= 1 && i <= s && s + j < |calls|
    && RunFrom(calls, b, step, i).outcome.Ok?
    && s - i + j < |RunFrom(calls, b, step, i).outcome.results|
    && step(s, calls[s..Min(s + b, |calls|)]).Decoded?
    && j < |step(s, calls[s..Min(s + b, |calls|)]).entries|
    && RunFrom(calls, b, step, i).outcome.results[s - i + j] == step(s, calls[s..Min(s + b, |calls|)]).entries[j]
  }

  /** In a successful run from `i`, the first chunk decoded, and its entry
      `j` is the result at offset `j`. */
  lemma RunFromAtHead(calls: seq<CallRequest>, b: nat, step: Step, i: nat, s: nat, j: nat)
    requires b >= 1 && Conforms(step)
    requires RunFrom(calls, b, step, i).outcome.Ok?
    requires s == i && j < b && s + j < |calls|
    ensures LandsAt(calls, b, step, i, s, j)
  {
    RunFromOkCons(calls, b, step, i);
    ConsIndexLeft(RunFrom(calls, b, step, i).outcome.results, step(i, calls[i..Min(i + b, |calls|)]).entries,
                  RunFrom(calls, b, step, i + b).outcome.results, j);
  }

  /** What holds of a chunk at `s` in the run from `i + b` holds of it in
      the run from `i`, shifted by the first chunk's `b` entries. */
  lemma RunFromAtShift(calls: seq<CallRequest>, b: nat, step: Step, i: nat, s: nat, j: nat)
    requires b >= 1 && Conforms(step)
    requires RunFrom(calls, b, step, i).outcome.Ok?
    requires LandsAt(calls, b, step, i + b, s, j)
    ensures LandsAt(calls, b, step, i, s, j)
  {
    RunFromOkCons(calls, b, step, i);
    ghost var entries := step(i, calls[i..Min(i + b, |calls|)]).entries;
    assert |entries| == b;
    ConsIndexRight(RunFrom(calls, b, step, i).outcome.results, entries, RunFrom(calls, b, step, i + b).outcome.results,
                   s - i + j, s - (i + b) + j);
  }

  /** In a successful run from `i`, the chunk that starts `m` strides after
      `i`, at `s`, decoded, and its entry `j` is the result at that chunk's
      `j`-th position (offsets relative to `i`). The chunk start `s` is
      determined by `i` and `m`; it is a parameter so that every step of
      the induction names the chunk by the same term, which the verifier
      matches far more cheaply than the equal sums `i + Stride(m, b)` it
      would otherwise have to relate. */
  lemma {:induction false} RunFromAt(calls: seq<CallRequest>, b: nat, step: Step, i: nat, m: nat, s: nat, j: nat)
    requires b >= 1 && Conforms(step)
    requires RunFrom(calls, b, step, i).outcome.Ok?
    requires s == i + Stride(m, b) && j < b && s + j < |calls|
    ensures LandsAt(calls, b, step, i, s, j)
    decreases m
  {
    if m == 0 {
      RunFromAtHead(calls, b, step, i, s, j);
    } else {
      var next := i + b;
      RunFromOkTail(calls, b, step, i);
      RunFromAt(calls, b, step, next, m - 1, s, j);
      RunFromAtShift(calls, b, step, i, s, j);
    }
  }

  /** Entry `j` of the reply to chunk `k` is the result at the position
      of the chunk's `j`-th request. */
  lemma ChunkEntryLands(calls: seq<CallRequest>, b: nat, step: Step, k: nat, j: nat)
    requires b >= 1 && Conforms(step)
    requires Multicall(calls, b, step).outcome.Ok?
    requires k < |Plan(|calls|, b)| && j < Plan(|calls|, b)[k].Size()
    ensures Plan(|calls|, b)[k].start + j < |Multicall(calls, b, step).outcome.results|
    ensures ChunkStep(calls, step, Plan(|calls|, b)[k]).Decoded?
    ensures j < |ChunkStep(calls, step, Plan(|calls|, b)[k]).entries|
    ensures Multicall(calls, b, step).outcome.results[Plan(|calls|, b)[k].start + j]
         == ChunkStep(calls, step, Plan(|calls|, b)[k]).entries[j]
  {
    var n := |calls|;
    var c := Plan(n, b)[k];
    PlanFromClosedForm(n, b, 0, k);
    PlanFromChunk(n, b, 0, k);
    var s := c.start;
    assert s == 0 + Stride(k, b) && c.end == Min(s + b, n);
    RunFromAt(calls, b, step, 0, k, s, j);
    assert Multicall(calls, b, step).outcome.results == RunFrom(calls, b, step, 0).outcome.results;
    assert s - 0 + j == s + j;
    assert ChunkStep(calls, step, c) == step(s, calls[s..Min(s + b, n)]);
  }

  /** `results[x]` answers `calls[x]`, wherever the chunk boundaries fall:
      it is entry `x % B` of the reply to chunk `x / B`. */
  lemma ResultAnswersItsCall(calls: seq<CallRequest>, b: nat, step: Step, x: nat)
    requires b >= 1 && Conforms(step)
    requires Multicall(calls, b, step).outcome.Ok?
    requires x < |calls|
    ensures x / b < |Plan(|calls|, b)| && Plan(|calls|, b)[x / b].Contains(x)
    ensures x < |Multicall(calls, b, step).outcome.results|
    ensures ChunkStep(calls, step, Plan(|calls|, b)[x / b]).Decoded?
    ensures x % b < |ChunkStep(calls, step, Plan(|calls|, b)[x / b]).entries|
    ensures Multicall(calls, b, step).outcome.results[x] == ChunkStep(calls, step, Plan(|calls|, b)[x / b]).entries[x % b]
  {
    PlanLocates(|calls|, b, x);
    ChunkEntryLands(calls, b, step, x / b, x % b);
  }

  /** The slice form: a chunk's decoded entries fill exactly its
      positions, in order. */
  lemma DemuxChunk(calls: seq<CallRequest>, b: nat, step: Step, k: nat)
    requires b >= 1 && Conforms(step)
    requires Multicall(calls, b, step).outcome.Ok?
    requires k < |Plan(|calls|, b)|
    ensures Plan(|calls|, b)[k].start <= Plan(|calls|, b)[k].end <= |Multicall(calls, b, step).outcome.results|
    ensures ChunkStep(calls, step, Plan(|calls|, b)[k]).Decoded?
    ensures Multicall(calls, b, step).outcome.results[Plan(|calls|, b)[k].start..Plan(|calls|, b)[k].end]
         == ChunkStep(calls, step, Plan(|calls|, b)[k]).entries
  {
    var c := Plan(|calls|, b)[k];
    var results := Multicall(calls, b, step).outcome.results;
    var answer := ChunkStep(calls, step, c);
    PlanFromChunk(|calls|, b, 0, k);
    ChunkEntryLands(calls, b, step, k, 0);
    ChunkEntryLands(calls, b, step, k, c.Size() - 1);
    assert |answer.entries| == c.Size();
    forall j | 0 <= j < c.Size()
      ensures results[c.start..c.end][j] == answer.entries[j]
    {
      ChunkEntryLands(calls, b, step, k, j);
    }
  }

  /** A successful call returns exactly one result per request, made
      `ceil(N / B)` remote invocations, and the entries decoded for each
      chunk fill that chunk's positions, in order. It succeeds exactly when
      every chunk decodes. */
  lemma MulticallDelivers(calls: seq<CallRequest>, b: nat, step: Step)
    requires b >= 1 && Conforms(step)
    ensures Multicall(calls, b, step).outcome.Ok? <==> AllDecode(calls, step, Plan(|calls|, b))
    ensures Multicall(calls, b, step).outcome.Ok? ==>
      && |Multicall(calls, b, step).outcome.results| == |calls|
      && Multicall(calls, b, step).trips == CeilDiv(|calls|, b)
    ensures Multicall(calls, b, step).outcome.Ok? ==>
      forall k :: 0 <= k < |Plan(|calls|, b)| ==>
        && Plan(|calls|, b)[k].start <= Plan(|calls|, b)[k].end <= |Multicall(calls, b, step).outcome.results|
        && Multicall(calls, b, step).outcome.results[Plan(|calls|, b)[k].start..Plan(|calls|, b)[k].end]
             == ChunkStep(calls, step, Plan(|calls|, b)[k]).entries
  {
    RunFromShape(calls, b, step, 0);
    PlanCount(|calls|, b);
    if Multicall(calls, b, step).outcome.Ok? {
      forall k | 0 <= k < |Plan(|calls|, b)|
        ensures Plan(|calls|, b)[k].start <= Plan(|calls|, b)[k].end <= |Multicall(calls, b, step).outcome.results|
        ensures Multicall(calls, b, step).outcome.results[Plan(|calls|, b)[k].start..Plan(|calls|, b)[k].end]
             == ChunkStep(calls, step, Plan(|calls|, b)[k]).entries
      {
        DemuxChunk(calls, b, step, k);
      }
    }
  }

  // ---------------------------------------------------------------------
  // Early abort

  /** Chunks 0 through `k` of `p` get the same answers from both steps. */
  predicate AgreeUpTo(calls: seq<CallRequest>, step: Step, step': Step, p: seq<Chunk>, k: nat)
  {
    forall k' :: 0 <= k' <= k && k' < |p| ==> ChunkStep(calls, step', p[k']) == ChunkStep(calls, step, p[k'])
  }

  /** A first failure among the chunks from `i + b` is, one position
      later, the first failure among the chunks from `i` when chunk `i`
      decodes. */
  lemma FirstFailureCons(calls: seq<CallRequest>, b: nat, step: Step, i: nat, k: nat)
    requires b >= 1 && i < |calls|
    requires step(i, calls[i..Min(i + b, |calls|)]).Decoded?
    requires FirstFailure(calls, step, PlanFrom(|calls|, b, i + b), k)
    ensures FirstFailure(calls, step, PlanFrom(|calls|, b, i), k + 1)
    ensures PlanFrom(|calls|, b, i)[k + 1] == PlanFrom(|calls|, b, i + b)[k]
  {
    HeadStep(calls, b, step, i);
    PlanFromTail(|calls|, b, i, k + 1);
    forall j | 0 < j < k + 1
      ensures ChunkStep(calls, step, PlanFrom(|calls|, b, i)[j]).Decoded?
    {
      PlanFromTail(|calls|, b, i, j);
    }
  }

  /** The converse: a first failure after chunk `i` is a first failure of
      the chunks from `i + b`, and agreement carries over. */
  lemma FirstFailureTail(calls: seq<CallRequest>, b: nat, step: Step, step': Step, i: nat, k: nat)
    requires b >= 1 && k > 0
    requires FirstFailure(calls, step, PlanFrom(|calls|, b, i), k)
    requires AgreeUpTo(calls, step, step', PlanFrom(|calls|, b, i), k)
    ensures i < |calls|
    ensures step(i, calls[i..Min(i + b, |calls|)]).Decoded?
    ensures step'(i, calls[i..Min(i + b, |calls|)]) == step(i, calls[i..Min(i + b, |calls|)])
    ensures FirstFailure(calls, step, PlanFrom(|calls|, b, i + b), k - 1)
    ensures AgreeUpTo(calls, step, step', PlanFrom(|calls|, b, i + b), k - 1)
    ensures PlanFrom(|calls|, b, i)[k] == PlanFrom(|calls|, b, i + b)[k - 1]
  {
    var p := PlanFrom(|calls|, b, i);
    var p' := PlanFrom(|calls|, b, i + b);
    PlanFromTail(|calls|, b, i, k);
    HeadStep(calls, b, step, i);
    HeadStep(calls, b, step', i);
    assert ChunkStep(calls, step, p[0]).Decoded?;
    assert ChunkStep(calls, step', p[0]) == ChunkStep(calls, step, p[0]);
    forall j | 0 <= j < k - 1
      ensures ChunkStep(calls, step, p'[j]).Decoded?
    {
      PlanFromTail(|calls|, b, i, j + 1);
    }
    forall j | 0 <= j <= k - 1 && j < |p'|
      ensures ChunkStep(calls, step', p'[j]) == ChunkStep(calls, step, p'[j])
    {
      PlanFromTail(|calls|, b, i, j + 1);
    }
  }

  /** A failing run from `i` stops at its first failing chunk: the error
      names that chunk's kind and start index, the chunks after it are never
      sent, and what the environment would have answered to them changes
      nothing. */
  lemma {:induction false} RunFromAbort(calls: seq<CallRequest>, b: nat, step: Step, step': Step, i: nat, k: nat)
    requires b >= 1
    requires FirstFailure(calls, step, PlanFrom(|calls|, b, i), k)
    requires AgreeUpTo(calls, step, step', PlanFrom(|calls|, b, i), k)
    ensures RunFrom(calls, b, step, i) == Run(
      Err(MulticallError(ChunkStep(calls, step, PlanFrom(|calls|, b, i)[k]).failure, PlanFrom(|calls|, b, i)[k].start)),
      k + TripCost(ChunkStep(calls, step, PlanFrom(|calls|, b, i)[k]).failure))
    ensures RunFrom(calls, b, step', i) == RunFrom(calls, b, step, i)
    decreases k
  {
    if k == 0 {
      HeadStep(calls, b, step, i);
      HeadStep(calls, b, step', i);
    } else {
      FirstFailureTail(calls, b, step, step', i, k);
      RunFromAbort(calls, b, step, step', i + b, k - 1);
    }
  }

  /** Every failing run has a first failing chunk, and the error is that
      chunk's. */
  lemma {:induction false} RunFromFailureIsFirst(calls: seq<CallRequest>, b: nat, step: Step, i: nat) returns (k: nat)
    requires b >= 1
    requires RunFrom(calls, b, step, i).outcome.Err?
    ensures FirstFailure(calls, step, PlanFrom(|calls|, b, i), k)
    ensures RunFrom(calls, b, step, i).outcome.error.chunkStart == PlanFrom(|calls|, b, i)[k].start
    decreases |calls| - i
  {
    HeadStep(calls, b, step, i);
    if step(i, calls[i..Min(i + b, |calls|)]).Failed? {
      k := 0;
    } else {
      var k' := RunFromFailureIsFirst(calls, b, step, i + b);
      FirstFailureCons(calls, b, step, i, k');
      k := k' + 1;
    }
  }

  /** A pack, call or unpack failure in chunk `k` (the first to fail)
      returns no results and an error carrying the chunk's start index; the
      remote invocations stop there, and no later chunk influences the
      outcome. */
  lemma AbortAtFirstFailure(calls: seq<CallRequest>, b: nat, step: Step, step': Step, k: nat)
    requires b >= 1
    requires FirstFailure(calls, step, Plan(|calls|, b), k)
    requires AgreeUpTo(calls, step, step', Plan(|calls|, b), k)
    ensures Multicall(calls, b, step).outcome
         == Err(MulticallError(ChunkStep(calls, step, Plan(|calls|, b)[k]).failure, Plan(|calls|, b)[k].start))
    ensures Multicall(calls, b, step).trips == k + TripCost(ChunkStep(calls, step, Plan(|calls|, b)[k]).failure)
    ensures Multicall(calls, b, step') == Multicall(calls, b, step)
  {
    RunFromAbort(calls, b, step, step', 0, k);
  }

  /** Every error carries the start index of the first chunk that failed,
      which is a multiple of the batch size below the number of calls. */
  lemma ErrorNamesFirstFailingChunk(calls: seq<CallRequest>, b: nat, step: Step)
    requires b >= 1
    requires Multicall(calls, b, step).outcome.Err?
    ensures exists k: nat :: FirstFailure(calls, step, Plan(|calls|, b), k)
                          && Multicall(calls, b, step).outcome.error.chunkStart == k * b
    ensures Multicall(calls, b, step).outcome.error.chunkStart < |calls|
  {
    var k := RunFromFailureIsFirst(calls, b, step, 0);
    PlanChunk(|calls|, b, k);
    PlanFromChunk(|calls|, b, 0, k);
  }

  // ---------------------------------------------------------------------
  // Batching transparency and per-call failures

  /** The replies an aggregator gives when it answers each call on its own. */
  function Answers(answer: CallRequest -> CallResult, batch: seq<CallRequest>): seq<CallResult>
  {
    seq(|batch|, j requires 0 <= j < |batch| => answer(batch[j]))
  }

  /** Answering two lists of calls answers their concatenation. */
  lemma AnswersAppend(answer: CallRequest -> CallResult, u: seq<CallRequest>, v: seq<CallRequest>)
    ensures Answers(answer, u + v) == Answers(answer, u) + Answers(answer, v)
  {
    assert forall j :: 0 <= j < |u| + |v| ==> Answers(answer, u + v)[j] == (Answers(answer, u) + Answers(answer, v))[j];
  }

  /** The environment answers every call independently of the chunk it
      travels in and of when the chunk is sent. */
  ghost predicate AnswersEachCall(step: Step, answer: CallRequest -> CallResult)
  {
    forall i: nat, batch: seq<CallRequest> :: step(i, batch) == Decoded(Answers(answer, batch))
  }

  lemma {:induction false} RunFromTransparent(calls: seq<CallRequest>, b: nat, step: Step, answer: CallRequest -> CallResult, i: nat)
    requires b >= 1 && AnswersEachCall(step, answer)
    ensures RunFrom(calls, b, step, i).outcome == Ok(Answers(answer, calls[Min(i, |calls|)..]))
    decreases |calls| - i
  {
    if i < |calls| {
      var end := Min(i + b, |calls|);
      var batch := calls[i..end];
      var later := calls[end..];
      assert calls[i..] == batch + later;
      assert step(i, batch) == Decoded(Answers(answer, batch));
      RunFromTransparent(calls, b, step, answer, i + b);
      assert RunFrom(calls, b, step, i + b).outcome == Ok(Answers(answer, later));
      AnswersAppend(answer, batch, later);
    } else {
      assert calls[Min(i, |calls|)..] == [];
    }
  }

  /** When the aggregator answers each call on its own, the results are its
      answers to the calls, in input order, whatever the batch size. */
  lemma BatchingIsTransparent(calls: seq<CallRequest>, b: nat, step: Step, answer: CallRequest -> CallResult)
    requires b >= 1 && AnswersEachCall(step, answer)
    ensures Multicall(calls, b, step).outcome == Ok(Answers(answer, calls))
  {
    RunFromTransparent(calls, b, step, answer, 0);
  }

  /** The batch size is a performance knob, not a semantic one. */
  lemma BatchSizeIsIrrelevant(calls: seq<CallRequest>, b: nat, b': nat, step: Step, answer: CallRequest -> CallResult)
    requires b >= 1 && b' >= 1 && AnswersEachCall(step, answer)
    ensures Multicall(calls, b, step).outcome == Multicall(calls, b', step).outcome
  {
    BatchingIsTransparent(calls, b, step, answer);
    BatchingIsTransparent(calls, b', step, answer);
  }

  /** A call that fails on chain (`Success == false`) is ordinary output:
      the whole call still succeeds, the failed entry sits in its own slot,
      and every slot holding a different request is the same as if the call
      had not failed. */
  lemma PerCallFailureIsIsolated(
    calls: seq<CallRequest>, b: nat,
    step: Step, answer: CallRequest -> CallResult,
    step': Step, answer': CallRequest -> CallResult,
    failing: CallRequest)
    requires b >= 1 && AnswersEachCall(step, answer) && AnswersEachCall(step', answer')
    requires !answer'(failing).success
    requires forall q :: q != failing ==> answer'(q) == answer(q)
    ensures Multicall(calls, b, step).outcome.Ok? && Multicall(calls, b, step').outcome.Ok?
    ensures |Multicall(calls, b, step).outcome.results| == |Multicall(calls, b, step').outcome.results| == |calls|
    ensures forall x :: 0 <= x < |calls| && calls[x] == failing ==>
      Multicall(calls, b, step').outcome.results[x] == answer'(failing)
    ensures forall x :: 0 <= x < |calls| && calls[x] != failing ==>
      Multicall(calls, b, step').outcome.results[x] == Multicall(calls, b, step).outcome.results[x]
  {
    BatchingIsTransparent(calls, b, step, answer);
    BatchingIsTransparent(calls, b, step', answer');
  }
}

=== FILE: model.dfy ===
/** The plain records of the multicall library and their constructors
    (model.go): a call request, a call result, the reusable configuration,
    and the two defaults the convenience constructor applies. */
module Model {

  /** An unsigned 8-bit value: Go's `byte`. */
  newtype Byte = x: int | 0 <= x < 256

  /** Number of bytes in an Ethereum account address (`common.Address`). */
  const AddressLength: nat := 20

  /** A 20-byte account address. */
  type Address = a: seq<Byte> | |a| == AddressLength witness seq(20, _ => 0)

  /** The address whose every byte is zero. */
  const ZeroAddress: Address := seq(AddressLength, _ => 0)

  /** The Ethereum client the configuration carries. The engine never looks
      inside it: every use goes through the per-chunk step of the Engine
      module, so an identity is all the model keeps. */
  datatype Client = Client(handle: nat)

  /** Go's `time.Duration`: a signed count of nanoseconds. */
  type Duration = int

  const Nanosecond: Duration := 1
  const Second: Duration := 1_000_000_000 * Nanosecond

  /** Batch size applied by `NewDefaultMulticallConfig`. */
  const DefaultBatchSize: int := 100

  /** Timeout applied by `NewDefaultMulticallConfig`. */
  const DefaultTimeout: Duration := 30 * Second

  /** One entry of an `aggregate3` call: the contract to call, whether its
      failure may be reported in-band, and the already packed calldata.
      The field order is the one the aggregator's Call3 tuple uses. */
  datatype CallRequest = CallRequest(target: Address, allowFailure: bool, callData: seq<Byte>)

  /** One entry of an `aggregate3` response: whether the sub-call
      succeeded and the bytes it returned. */
  datatype CallResult = CallResult(success: bool, data: seq<Byte>)

  /** The value every slot of a freshly made `[]CallResult` holds:
      `Success == false` and a nil `Data`, which the model writes as the
      empty byte sequence. */
  const ZeroResult: CallResult := CallResult(false, [])

  /** The reusable configuration. `batchSize` is Go's `int` and may hold any
      value, including zero and negative ones; the engine states what it
      needs of it. */
  datatype MulticallConfig = MulticallConfig(
    client: Client,
    multicallAddress: Address,
    batchSize: int,
    timeout: Duration)

  /** Builds a configuration from its four parts. Every argument is kept as
      given: no batch size or timeout is rejected or adjusted. */
  function NewMulticallConfig(client: Client, multicallAddress: Address, batchSize: int, timeout: Duration): (c: MulticallConfig)
    ensures c.client == client
    ensures c.multicallAddress == multicallAddress
    ensures c.batchSize == batchSize
    ensures c.timeout == timeout
  {
    MulticallConfig(client, multicallAddress, batchSize, timeout)
  }

  /** Builds a configuration with the library's defaults: batches of 100
      calls and a 30-second deadline. */
  function NewDefaultMulticallConfig(client: Client, multicallAddress: Address): (c: MulticallConfig)
    ensures c.client == client && c.multicallAddress == multicallAddress
    ensures c.batchSize == 100
    ensures c.timeout == 30_000_000_000
  {
    NewMulticallConfig(client, multicallAddress, DefaultBatchSize, DefaultTimeout)
  }

  /** Builds a request. The parameters come in the order target, calldata,
      allowFailure, which differs from the field order; each still lands in
      its own field. */
  function NewCallRequest(target: Address, packedCallData: seq<Byte>, allowFailure: bool): (r: CallRequest)
    ensures r.target == target
    ensures r.callData == packedCallData
    ensures r.allowFailure == allowFailure
  {
    CallRequest(target, allowFailure, packedCallData)
  }

  /** No validation: every configuration value, whatever its batch size or
      timeout, is what `NewMulticallConfig` returns for its own fields. */
  lemma NewMulticallConfigIsOnto(c: MulticallConfig)
    ensures NewMulticallConfig(c.client, c.multicallAddress, c.batchSize, c.timeout) == c
  {
  }

  /** No validation, from the other side: distinct arguments give distinct
      configurations, so nothing is clamped or replaced by a default. */
  lemma NewMulticallConfigIsInjective(
    client: Client, address: Address, batchSize: int, timeout: Duration,
    client': Client, address': Address, batchSize': int, timeout': Duration)
    requires NewMulticallConfig(client, address, batchSize, timeout) == NewMulticallConfig(client', address', batchSize', timeout')
    ensures client == client' && address == address' && batchSize == batchSize' && timeout == timeout'
  {
  }

  /** `NewCallRequest` loses nothing: the request's fields, read back in the
      constructor's parameter order, rebuild the same request. */
  lemma NewCallRequestRoundTrip(r: CallRequest)
    ensures NewCallRequest(r.target, r.callData, r.allowFailure) == r
  {
  }
}

=== FILE: planner.dfy ===
/** The batch planner hidden in the header of the loop of `MulticallRaw`
    (service.go:54-55): the index starts at 0, advances by the batch size
    while it is below the number of calls, and each step takes the slice
    `calls[i:min(i+batchSize, n)]`. The module names those slices as index
    ranges and proves that they tile `[0, n)` in order. */
module Planner {

  function Min(a: int, b: int): int
  {
    if a <= b then a else b
  }

  /** The half-open index range `[start, end)` of the call list that one
      remote invocation carries. */
  datatype Chunk = Chunk(start: nat, end: nat)
  {
    function Size(): int
    {
      end - start
    }

    predicate Contains(x: int)
    {
      start <= x < end
    }
  }

  /** The chunks the loop visits from index `i` on, for `n` calls and batch
      size `b`. The recursion, like the loop, only makes progress because
      `b` is at least one. */
  function PlanFrom(n: nat, b: nat, i: nat): seq<Chunk>
    requires b >= 1
    decreases n - i
  {
    if i >= n then [] else [Chunk(i, Min(i + b, n))] + PlanFrom(n, b, i + b)
  }

  /** All chunks of one `MulticallRaw` call over `n` requests. */
  function Plan(n: nat, b: nat): seq<Chunk>
    requires b >= 1
  {
    PlanFrom(n, b, 0)
  }

  /** `ceil(n / b)`. */
  function CeilDiv(n: nat, b: nat): nat
    requires b >= 1
  {
    (n + b - 1) / b
  }

  // ---------------------------------------------------------------------
  // One step of the loop

  /** The loop body runs from `i` exactly when `i < n`. */
  lemma PlanFromEmpty(n: nat, b: nat, i: nat)
    requires b >= 1
    ensures |PlanFrom(n, b, i)| == 0 <==> i >= n
  {
  }

  /** The first chunk from `i` is `[i, min(i + b, n))`. */
  lemma PlanFromHead(n: nat, b: nat, i: nat)
    requires b >= 1 && i < n
    ensures |PlanFrom(n, b, i)| == |PlanFrom(n, b, i + b)| + 1
    ensures PlanFrom(n, b, i)[0] == Chunk(i, Min(i + b, n))
  {
  }

  /** The chunks after the first are the chunks from `i + b`. */
  lemma PlanFromTail(n: nat, b: nat, i: nat, k: nat)
    requires b >= 1 && 0 < k < |PlanFrom(n, b, i)|
    ensures i < n && |PlanFrom(n, b, i)| == |PlanFrom(n, b, i + b)| + 1
    ensures PlanFrom(n, b, i)[k] == PlanFrom(n, b, i + b)[k - 1]
  {
  }

  /** Each chunk from `i` is a non-empty slice of `[i, n)` of at most `b`
      calls; every chunk but the last holds exactly `b` calls and ends
      where the next one starts, and the last one ends at `n`. */
  lemma {:induction false} PlanFromChunk(n: nat, b: nat, i: nat, k: nat)
    requires b >= 1 && k < |PlanFrom(n, b, i)|
    ensures i <= PlanFrom(n, b, i)[k].start < PlanFrom(n, b, i)[k].end <= n
    ensures PlanFrom(n, b, i)[k].Size() <= b
    ensures PlanFrom(n, b, i)[k].end == Min(PlanFrom(n, b, i)[k].start + b, n)
    ensures k + 1 < |PlanFrom(n, b, i)| ==>
      PlanFrom(n, b, i)[k].Size() == b && PlanFrom(n, b, i)[k].end == PlanFrom(n, b, i)[k + 1].start
    ensures k + 1 == |PlanFrom(n, b, i)| ==> PlanFrom(n, b, i)[k].end == n
    decreases k
  {
    PlanFromHead(n, b, i);
    if k == 0 {
      if 1 < |PlanFrom(n, b, i)| {
        PlanFromTail(n, b, i, 1);
        PlanFromHead(n, b, i + b);
      } else {
        PlanFromEmpty(n, b, i + b);
      }
    } else {
      PlanFromTail(n, b, i, k);
      if k + 1 < |PlanFrom(n, b, i)| {
        PlanFromTail(n, b, i, k + 1);
      }
      PlanFromChunk(n, b, i + b, k - 1);
    }
  }

  // ---------------------------------------------------------------------
  // Arithmetic: non-linear facts the solver does not find alone

  lemma MulMono(a: int, c: int, b: int)
    requires a <= c && b >= 0
    ensures a * b <= c * b
  {
    assert c * b - a * b == (c - a) * b;
  }

  /** `k * b`, built by repeated addition so that the induction over
      chunks stays within linear arithmetic. */
  function Stride(k: nat, b: nat): nat
  {
    if k == 0 then 0 else Stride(k - 1, b) + b
  }

  lemma {:induction false} StrideIsProduct(k: nat, b: nat)
    ensures Stride(k, b) == k * b
  {
    if k > 0 {
      StrideIsProduct(k - 1, b);
      assert (k - 1) * b + b == k * b;
    }
  }

  /** Division is pinned down by the interval its quotient brackets. */
  lemma DivUnique(a: int, b: int, q: int)
    requires b > 0 && q * b <= a < q * b + b
    ensures a / b == q
  {
    var d := a / b;
    assert a == d * b + a % b && 0 <= a % b < b;
    if d < q {
      assert (d + 1) * b == d * b + b;
      MulMono(d + 1, q, b);
    } else if d > q {
      assert (q + 1) * b == q * b + b;
      MulMono(q + 1, d, b);
    }
  }

  /** `CeilDiv(n, b)` is the least `q` with `q * b >= n`. */
  lemma CeilDivBrackets(n: nat, b: nat)
    requires b >= 1
    ensures CeilDiv(n, b) * b >= n
    ensures CeilDiv(n, b) == 0 || (CeilDiv(n, b) - 1) * b < n
  {
    var q := CeilDiv(n, b);
    assert n + b - 1 == q * b + (n + b - 1) % b;
    assert (q - 1) * b == q * b - b;
  }

  /** Any `q` that brackets `n` the way a ceiling does is `CeilDiv(n, b)`. */
  lemma CeilDivUnique(n: nat, b: nat, q: nat)
    requires b >= 1
    requires q * b >= n && (q == 0 || (q - 1) * b < n)
    ensures q == CeilDiv(n, b)
  {
    var c := CeilDiv(n, b);
    CeilDivBrackets(n, b);
    if q < c {
      MulMono(q, c - 1, b);
    } else if q > c {
      MulMono(c, q - 1, b);
    }
  }

  /** If the `m`-th stride is the last one below `n`, there are `m + 1`
      strides in all. */
  lemma CeilDivOfLastStride(n: nat, b: nat, m: nat)
    requires b >= 1 && Stride(m, b) < n <= Stride(m, b) + b
    ensures CeilDiv(n, b) == m + 1
  {
    StrideIsProduct(m, b);
    assert (m + 1) * b == m * b + b;
    CeilDivUnique(n, b, m + 1);
  }

  // ---------------------------------------------------------------------
  // The shape of the plan

  /** Chunk `k` from `i` is `[i + k*b, min(i + k*b + b, n))`. */
  lemma {:induction false} PlanFromClosedForm(n: nat, b: nat, i: nat, k: nat)
    requires b >= 1
    requires k < |PlanFrom(n, b, i)|
    ensures PlanFrom(n, b, i)[k] == Chunk(i + Stride(k, b), Min(i + Stride(k, b) + b, n))
    decreases k
  {
    PlanFromHead(n, b, i);
    if k > 0 {
      PlanFromTail(n, b, i, k);
      PlanFromClosedForm(n, b, i + b, k - 1);
    }
  }

  /** Chunk `k` is `[k*b, min(k*b + b, n))`. */
  lemma PlanChunk(n: nat, b: nat, k: nat)
    requires b >= 1 && k < |Plan(n, b)|
    ensures Plan(n, b)[k] == Chunk(k * b, Min(k * b + b, n))
  {
    PlanFromClosedForm(n, b, 0, k);
    StrideIsProduct(k, b);
  }

  /** There are `ceil(n / b)` chunks: one remote invocation per chunk. */
  lemma PlanCount(n: nat, b: nat)
    requires b >= 1
    ensures |Plan(n, b)| == CeilDiv(n, b)
  {
    var p := Plan(n, b);
    if |p| > 0 {
      PlanFromClosedForm(n, b, 0, |p| - 1);
      PlanFromChunk(n, b, 0, |p| - 1);
      CeilDivOfLastStride(n, b, |p| - 1);
    } else {
      PlanFromEmpty(n, b, 0);
      CeilDivUnique(n, b, 0);
    }
  }

  /** The chunks cover `[0, n)` from end to end: there are none exactly
      when there are no calls, the first starts at 0, the last ends at `n`,
      chunk `k + 1` starts where chunk `k` ends, and every chunk holds
      between one and `b` calls, all but the last exactly `b`. */
  lemma PlanTiles(n: nat, b: nat)
    requires b >= 1
    ensures |Plan(n, b)| == 0 <==> n == 0
    ensures |Plan(n, b)| > 0 ==> Plan(n, b)[0].start == 0 && Plan(n, b)[|Plan(n, b)| - 1].end == n
    ensures forall k :: 0 <= k < |Plan(n, b)| ==> 1 <= Plan(n, b)[k].Size() <= b && Plan(n, b)[k].end <= n
    ensures forall k :: 0 <= k < |Plan(n, b)| - 1 ==>
      Plan(n, b)[k].Size() == b && Plan(n, b)[k].end == Plan(n, b)[k + 1].start
  {
    var p := Plan(n, b);
    PlanFromEmpty(n, b, 0);
    if |p| > 0 {
      PlanFromHead(n, b, 0);
      PlanFromChunk(n, b, 0, |p| - 1);
    }
    forall k | 0 <= k < |p|
      ensures 1 <= p[k].Size() <= b && p[k].end <= n
    {
      PlanFromChunk(n, b, 0, k);
    }
    forall k | 0 <= k < |p| - 1
      ensures p[k].Size() == b && p[k].end == p[k + 1].start
    {
      PlanFromChunk(n, b, 0, k);
    }
  }

  /** Chunks come in increasing order: every index of an earlier chunk lies
      below every index of a later one, so no two chunks overlap. */
  lemma {:induction false} PlanOrdered(n: nat, b: nat, k: nat, k': nat)
    requires b >= 1
    requires k < k' < |Plan(n, b)|
    ensures Plan(n, b)[k].end <= Plan(n, b)[k'].start
    decreases k' - k
  {
    PlanFromChunk(n, b, 0, k);
    if k + 1 < k' {
      PlanFromChunk(n, b, 0, k + 1);
      PlanOrdered(n, b, k + 1, k');
    }
  }

  /** Euclidean division brackets its dividend. */
  lemma DivBrackets(x: nat, b: nat)
    requires b >= 1
    ensures (x / b) * b <= x < (x / b) * b + b
    ensures x % b == x - (x / b) * b
  {
    assert x == (x / b) * b + x % b;
  }

  /** An index below `n` has its quotient below the number of chunks. */
  lemma QuotientInRange(n: nat, b: nat, x: nat)
    requires b >= 1 && x < n
    ensures x / b < CeilDiv(n, b)
  {
    DivBrackets(x, b);
    CeilDivBrackets(n, b);
    if x / b >= CeilDiv(n, b) {
      MulMono(CeilDiv(n, b), x / b, b);
    }
  }

  /** The chunk holding `x` is chunk `x / b`. */
  lemma ChunkIndexOf(n: nat, b: nat, x: nat, k: nat)
    requires b >= 1 && k < |Plan(n, b)| && Plan(n, b)[k].Contains(x)
    ensures k == x / b
  {
    PlanChunk(n, b, k);
    DivUnique(x, b, k);
  }

  /** Every index of the call list lies in exactly one chunk: chunk
      `x / b`, at offset `x % b` inside it. */
  lemma PlanLocates(n: nat, b: nat, x: nat)
    requires b >= 1 && x < n
    ensures x / b < |Plan(n, b)|
    ensures Plan(n, b)[x / b].Contains(x)
    ensures x - Plan(n, b)[x / b].start == x % b
    ensures forall k :: 0 <= k < |Plan(n, b)| && Plan(n, b)[k].Contains(x) ==> k == x / b
  {
    var q := x / b;
    QuotientInRange(n, b, x);
    PlanCount(n, b);
    PlanChunk(n, b, q);
    DivBrackets(x, b);
    forall k | 0 <= k < |Plan(n, b)| && Plan(n, b)[k].Contains(x)
      ensures k == q
    {
      ChunkIndexOf(n, b, x, k);
    }
  }
}
